=== FILE: README.md ===
# Ai Writer — a Dafny model of the extension's core

Ai Writer is a browser extension that rewrites selected text through an AI
provider (OpenAI chat completions or Google Gemini `generateContent`). This
project models its core as pure Dafny functions over immutable data and
proves properties about them:

- **background worker** (`background.js`):
  - how the stored settings resolve to a provider, key, endpoint and model;
  - how a prompt is built per mode;
  - how the Gemini base URL is normalised;
  - how the request is shaped for each provider, and how the answer or the
    error is extracted and wrapped;
  - the context-menu handler that delivers the result to the page, retrying
    once and falling back to the clipboard;
  - the `rewrite` message answered to the popup.
- **content script** (`content.js`):
  - the search for the editable field around the selection, and the
    selection report;
  - splicing the result into a field;
  - the single result/error overlay, and the message dispatcher;
  - the guard against running twice.
- **options page** (`options.js`):
  - the one-time migration of the legacy key, and loading the form;
  - the fix-ups when the provider changes, and clearing a key;
  - validation and merge on Save, and the request built by the connection
    test.
- **popup** (`popup.js`):
  - input validation and showing the worker's answer;
  - the character counter and swapping input and output;
  - filling the input from the page's selection;
  - the replace-in-page attempts.

Browser calls (storage, messaging, script injection, clipboard,
notifications, `fetch`) are not executed. Their outcomes are parameters:

- the store is a `map<string, string>`;
- the network is a function from request to reply;
- each messaging or injection call is a boolean or a reply value;
- a handler's effect is the value it returns, or the trace of calls it makes.

Files, one module each:

| file | module | models |
|---|---|---|
| `wrappers.dfy` | `Wrappers` | `Option`, `Result` |
| `strings.dfy` | `Strings` | JavaScript string operations: `trim`, `includes`, `startsWith`/`endsWith`, `replace` with a string pattern, `substring`, `${n}`, `a \|\| b` |
| `settings.dfy` | `Settings` | storage item names, providers, defaults, resolution of the stored settings |
| `prompts.dfy` | `Prompts` | modes, the per-mode instruction, `buildPrompt`, the context-menu table |
| `endpoint.dfy` | `Endpoint` | the Gemini base-URL normaliser and request URL |
| `adapter.dfy` | `Adapter` | `rewriteText`: request shaping, reply extraction, error wrapping |
| `delivery.dfy` | `Delivery` | the context-menu click handler and its delivery trace |
| `page.dfy` | `ContentScript` | the content script |
| `options.dfy` | `Options` | the options page |
| `popup.dfy` | `Popup` | the popup and the worker's `rewrite` listener |

## Model

| member | source | states |
|---|---|---|
| Strings.Trim | background.js:260 | The trimmed string has no whitespace at either end. It is exactly the input minus a whitespace prefix and a whitespace suffix, and it is empty exactly when the input is all whitespace. |
| Strings.TrimIdempotent | popup.js:137 | Trimming an already trimmed string changes nothing. |
| Strings.TrimLeadingSpace | background.js:260 | A leading whitespace character makes no difference to the trimmed result. |
| Strings.ReplaceFirst | background.js:267 | `replace` with a string pattern replaces only the first occurrence, wherever it is, and returns the string unchanged when there is none. |
| Strings.IndexOf | background.js:267 | The position found is an occurrence with no earlier one, and there is no position exactly when the pattern does not occur. |
| Strings.NatToStringRoundTrip | popup.js:125 | The decimal text of a count reads back as that count. |
| Settings.ResolveApiKey | background.js:225-227 | A provider's own key item wins whenever it is defined, even when empty. Only when it is absent does the legacy `apiKey` apply, and with neither the key is empty. |
| Settings.Resolve | background.js:221-237 | The provider is Gemini exactly when the stored provider is `gemini`. A stored endpoint or model is used unless empty; otherwise the provider's default is. Endpoint and model are never empty. |
| Settings.ResolveEmptyStore | background.js:224-234 | A fresh store resolves to OpenAI with no key and the OpenAI default endpoint and model. |
| Settings.ProviderName | background.js:224 | A provider's stored name reads back as that provider. |
| Prompts.BuildPrompt | background.js:200-211 | The prompt is the mode's instruction, a blank line, then exactly the user's text. |
| Prompts.PromptRoundTrip | background.js:211 | The user's text is recovered from the prompt. |
| Prompts.BuildPromptInjective | background.js:211 | Different texts in the same mode give different prompts. |
| Prompts.InstructionLanguageRule | background.js:202-207 | The instruction says "do not translate" in every mode except Translate. |
| Prompts.TranslateTargetsEnglish | background.js:207 | The Translate instruction names English as the target language. |
| Prompts.MenuMode | background.js:57-77 | A menu id that belongs to no mode gives Professional, the handler's default. |
| Prompts.MenuRoundTrip | background.js:14-77 | Every mode's menu item id maps back to that mode. |
| Endpoint.EnsureVersion | background.js:269-272 | The result names an API version. A URL that already does is returned unchanged. Any other URL is kept as the prefix and gains `/v1beta`, sharing a trailing slash, so the result is exactly 6 or 7 characters longer. |
| Endpoint.Normalize | background.js:259-272 | Whatever the configured endpoint, the normalised base URL ends in `/v1beta` or `/v1`. It starts with the trimmed endpoint after the slash and `/models` steps, so the configured host is kept. |
| Endpoint.DefaultEndpointNormal | background.js:259-272 | The default Gemini endpoint comes out of the normaliser unchanged. |
| Endpoint.GeminiUrl | background.js:273 | The request URL starts with the normalised base and `/models/` and ends with `:generateContent?key=` and the key. Between the two sits exactly the model name, and the length is the sum of the three parts. |
| Endpoint.NormalizeKeepsVersioned | background.js:259-272 | A trimmed endpoint that already names a version is left as is. |
| Endpoint.NormalizeIdempotent | background.js:259-272 | Normalising twice equals normalising once, provided the first result does not start with whitespace. |
| Endpoint.NotIdempotent | background.js:266-268 | Because only the first `/models` is removed, `"/models /models"` normalises to `" /models/v1beta"`, which normalises again to `"/models/v1beta"`. |
| Endpoint.NormalizeStripsModels | background.js:262-268 | The default endpoint with `/models/` pasted after it normalises back to the default endpoint. |
| Adapter.ChatDirectiveUnlessTranslate | background.js:309-320 | An OpenAI request goes to the configured endpoint with the key as bearer. The user message is last and carries the prompt. A system message comes first exactly when the mode is not Translate. There are two messages, or only the user message in Translate mode. |
| Adapter.GeminiDirectiveUnlessTranslate | background.js:251-273 | A Gemini request goes to the normalised `generateContent` URL. Its text ends with the prompt, and starts with the language directive and a blank line exactly when the mode is not Translate. Its length leaves nothing between the two: it is the bare prompt in Translate mode, and the directive, a blank line and the prompt otherwise. |
| Adapter.Extract | background.js:298-305 | An answer field that is missing or blank is refused with the provider's "No result returned" message. Otherwise the answer, trimmed, is returned. |
| Adapter.ExtractAnswer | background.js:299-303 | A reply carrying a non-blank answer yields that answer trimmed. A blank one yields the provider's no-result error. |
| Adapter.Wrap | background.js:350-355 | An error mentioning "API key" passes through unchanged. Any other error becomes exactly "Failed to connect to API: " followed by the message: it starts with the prefix, ends with the original, and is as long as the two together. |
| Adapter.StatusError | background.js:293-296 | For a non-ok response, the provider's own `error.message` is used when non-empty. Otherwise the message is "API error: " followed by the status text. |
| Adapter.Exchange | background.js:293-305 | A thrown fetch gives its own message. A non-ok response gives the status error. An ok response gives the provider's extracted answer. |
| Adapter.RewriteText | background.js:214-356 | The length check and the key check come first, in that order. A request is made exactly when both pass, and is the one built from the resolved settings and the prompt. Success means an ok reply whose answer is returned non-empty and trimmed. Every error message is non-empty: too long, no key, one mentioning "API key", or one starting "Failed to connect to API: ". |
| Adapter.AnswerReachesCaller | background.js:214-356 | When the network answers every request with a given trimmed answer, a permitted rewrite returns exactly that answer. |
| Adapter.ErrorStatusReachesCaller | background.js:336-356 | When the network answers every request with a non-ok status, a permitted rewrite fails with the status error passed through the `catch` wrapper. |
| Delivery.Deliver | background.js:79-148 | Before anything else, the content script is injected and the result is sent once, with the selection, the result and the mode. |
| Delivery.DeliverSends | background.js:79-146 | `showResult` is sent twice exactly when the first send failed and the re-injection worked, otherwise once. Every send carries the same payload. The script is injected once, and a second time exactly when the first send failed. The clipboard is tried at most once, exactly when neither send reached the page. |
| Delivery.ClipboardIffUndelivered | background.js:117-146 | The clipboard fallback runs exactly when neither send reached the page. The "copied" notice appears exactly when that copy worked and notifications exist. |
| Delivery.Report | background.js:149-167 | An error is sent to the page once, falling back to "Failed to rewrite text" for an empty message. A notification follows exactly when that send fails and notifications exist. It is titled "Ai Writer Error" and carries the same message. Nothing else happens. |
| Delivery.OnMenuClick | background.js:52-168 | Without a selection nothing runs. Otherwise the menu id's mode is rewritten, and the result is delivered or the error reported. |
| Delivery.NoResultWithoutRewrite | background.js:52-168 | Without a selection, or when the rewrite fails, no result is sent and no script is injected: both counts are zero. |
| ContentScript.IsElementEditable | content.js:72-101 | The selection is editable exactly when its element or one of its next five ancestors is a text area, a text input, or content-editable. |
| ContentScript.FindEditableElement | content.js:104-141 | Without a range nothing is found. A null container makes the search throw. Otherwise the nearest qualifying node within the same window is found, or none. |
| ContentScript.FindAgreesWithEditable | content.js:72-141 | When the search does not throw, it finds a field exactly when the selection counts as editable. |
| ContentScript.GetSelectedText | content.js:45-69 | A blank selection reports `("", false)`. Otherwise it reports the trimmed text and whether a field is near. |
| ContentScript.SpliceShape | content.js:421 | Splicing keeps the text before the selection and after it, and puts the new text in between. The length changes by the difference. |
| ContentScript.SpliceUndo | content.js:421 | Splicing the replaced text back over the inserted text restores the original. |
| ContentScript.ReplaceIn | content.js:417-426 | A text area, an input or a content-editable element gets the splice, with the caret placed right after the new text. Anything else is untouched. |
| ContentScript.ReplaceSelectedText | content.js:410-454 | Without a recorded field or a range nothing changes. Otherwise only the recorded field changes, and it gets the replacement. |
| ContentScript.ShowResultOverlay | content.js:144-152 | The original text is recorded before the search. If the search throws, the old overlay stays and nothing but the recorded text changes. Otherwise the field found, or none, is recorded, and the new overlay replaces the old one, with Replace enabled exactly when a field was found. |
| ContentScript.ShowErrorOverlay | content.js:366-388 | The error overlay replaces any overlay. The recorded field is kept. |
| ContentScript.Close | content.js:325-330 | Closing removes the overlay and leaves the page and the recorded field alone. |
| ContentScript.HandleMessage | content.js:18-42 | `replaceText` fails only when no field is found now. When one is found, the recorded field gets the text and the reply is success, even when no field was recorded and nothing changes. `showResult` shows the result overlay and acknowledges exactly when the search did not throw. `getSelection` reports the selection. `showError` shows the error overlay. |
| ContentScript.ReplaceTextIgnoredWithoutOverlay | content.js:32-39 | On a page with "hello" selected in a text area and no overlay shown before, `replaceText` with "hi" reports success and changes nothing. |
| ContentScript.HandleMessageFixed | content.js:32-39 | With the correction, `replaceText` writes into the field found for the current selection and records that field. Every other message is handled as before. |
| ContentScript.ClickReplace | content.js:349-353 | The overlay's Replace does nothing unless the selection was editable. Otherwise it replaces the selection with the result and closes the overlay. |
| ContentScript.AtMostOneOverlay | content.js:149-152 | After any sequence of messages and clicks, at most one overlay is attached, and it is the one the script refers to. This holds for the listener as written and for the corrected one. |
| ContentScript.Inject | content.js:7-10 | A second run of the script changes nothing. |
| ContentScript.InjectIdempotent | content.js:7-10 | Injecting into an injected page gives the same page as injecting once. |
| ContentScript.OneListener | content.js:7-18 | However many times the script is injected, one message listener is registered. |
| Options.Migrate | options.js:47-57 | Only a non-blank legacy key is migrated, and it is removed afterwards. Each provider key that is defined is kept. An undefined one takes the legacy key for the stored provider, and `''` for the other. Everything else is kept. |
| Options.MigrateIdempotent | options.js:47-57 | Migrating twice equals migrating once. |
| Options.MigratePreservesResolve | options.js:47-57 | For the provider values the page can store, the worker resolves the same settings before and after migration. |
| Options.LoadForm | options.js:42-92 | The form shows the stored provider and an empty key input. It shows a key as stored exactly when the current provider's key is non-blank. An absent or empty stored endpoint or model gives the provider's default, and so does one carrying the other provider's mark. Any other stored value is shown as stored. Endpoint and model are never empty. |
| Options.FixUp | options.js:187-229 | After the fix-up the endpoint and model are non-empty and carry no mark of the other provider: `openai.com` or `gpt-` for Gemini, `generativelanguage` or `gemini-` for OpenAI. Values that are already fine are kept. |
| Options.FixUpIdempotent | options.js:187-229 | Fixing up a fixed-up form changes nothing. |
| Options.DefaultsAreClean | options.js:197-223 | Neither provider's default endpoint or model carries the other provider's mark. |
| Options.SwitchProvider | options.js:132-135 | Switching provider applies the fix-ups, empties the key input, and reports a stored key exactly when the new provider has a non-blank one. |
| Options.SwitchProviderIdempotent | options.js:132-135 | Choosing the same provider twice gives the same form as choosing it once. The form has that provider, an empty key input, and fields the fix-ups leave alone. |
| Options.ClearKey | options.js:174-184 | Only the current provider's key item is removed from storage. |
| Options.ClearKeyForgets | options.js:174-184 | After clearing, the form yields no key for the selected provider and shows none as stored. The other items keep their values. |
| Options.EffectiveKey | options.js:232-243 | A typed key, trimmed, wins. Otherwise the current provider's stored key, trimmed, is used if non-blank. The key is empty exactly when neither exists. |
| Options.Validate | options.js:251-265 | The form is refused exactly when it has no key, or is an OpenAI form without an endpoint, or has no model. The first of these problems is the one reported. |
| Options.Save | options.js:246-291 | Nothing is written on a validation error. Otherwise the provider, trimmed endpoint and model are stored, and the key goes to the selected provider only. The other provider's key keeps its stored value or becomes `''`, and other items are untouched. |
| Options.SaveForm | options.js:276-287 | A successful save clears the key input and marks a key as stored. A refused save leaves the form as it was. |
| Options.SavedKeyStaysEffective | options.js:276-287 | Clearing the key input after a save loses nothing: the saved form with the saved items yields the key used before, and the stored-key mark matches what was stored. |
| Options.SaveThenResolve | options.js:267-275 | After a save, the worker runs with the selected provider, the effective key, the entered endpoint (Gemini's default if left empty) and the entered model. |
| Options.SaveThenLoad | options.js:59-63 | After a save, reloading the page selects the same provider and shows a stored key. |
| Options.TestRequest | options.js:294-366 | The connection test refuses exactly what validation refuses, with validation's message ending in " first". Gemini gets "Hello" at the `generateContent` URL. OpenAI gets a chat request to the entered endpoint, with the key, the trimmed model and the single user message "Hello". |
| Options.TestRefusesWhatSaveRefuses | options.js:299-313 | The test refuses exactly the forms Save refuses. |
| Options.TestUrlMatchesRewrite | options.js:321-336 | For a Gemini form with an endpoint, the test posts to the same URL a rewrite with the saved settings posts to. |
| Options.BlankEndpointReachable | options.js:132-135 | Spaces typed into the endpoint while OpenAI is selected survive the switch to Gemini. Typing a key then gives the form the divergence below starts from. |
| Options.BlankEndpointTestDiverges | options.js:294-336 | A Gemini form whose endpoint is only spaces survives the fix-ups and is saved, and a rewrite then uses the default endpoint. The connection test instead posts to a URL starting `/v1beta/models/`, which differs from the rewrite's. |
| Options.TestRequestFixed | options.js:294-336 | The corrected test refuses exactly what the test as written refuses, with the same message. It differs only for a Gemini form with a blank endpoint, which it sends to the default endpoint. |
| Options.TestUrlMatchesRewriteFixed | options.js:321-336 | With the correction, the test posts to the same URL a rewrite with the saved settings posts to, for every Gemini form Save accepts, including one with a blank endpoint. |
| Popup.Submit | popup.js:136-158 | A blank input is refused with "Please enter or select text to rewrite.", and a trimmed text over 10000 with the too-long message. Otherwise the trimmed text and the mode are sent. |
| Popup.Respond | background.js:172-178 | The worker answers `success` exactly when the rewrite succeeded, with its result, or else with its non-empty error message. |
| Popup.Finish | popup.js:160-167 | On success the output is filled and shown. Otherwise an error is shown: the answer's, "Failed to rewrite text", or "Failed to connect to extension". The output is kept. |
| Popup.Rewrite | popup.js:136-171 | The worker never refuses the popup's text for length. The popup shows exactly the worker's result or error message, and never its own fallback. |
| Popup.Swap | popup.js:251-258 | Input and output change places, and nothing else changes. |
| Popup.SwapInvolution | popup.js:251-258 | Swapping twice restores the view. |
| Popup.CharCount | popup.js:123-133 | The counter reads `<n> characters`. It gains ` (max 10000)` and the warning colour exactly when the untrimmed input is over 10000. In that case the caption is exactly the count, ` characters` and ` (max 10000)`. |
| Popup.CountReadsBack | popup.js:124-125 | The counter's leading digits, up to its first space, read back as the input's length. |
| Popup.CounterWarnsYetSends | popup.js:123-147 | One leading space on a text of exactly 10000 characters turns the counter red, yet the text is still sent. |
| Popup.LoadSelection | popup.js:50-63 | Only a reply with text fills the input. The replace button is then shown exactly when that text is editable. |
| Popup.LoadFromPage | popup.js:51-62 | With the content script replying, the input becomes the page's trimmed selection. Replace is offered exactly when a field is near it. |
| Popup.Replace | popup.js:195-205 | An empty output does nothing. A failed tab query and a missing tab each give their own error. |
| Popup.ReplaceSends | popup.js:220-243 | At most two `replaceText` messages are sent. The second is sent only after a failed first one and a working re-injection, and both carry the output. |
| Popup.ReplaceEnds | popup.js:220-243 | The popup closes exactly when a send resolved, and shows an error exactly when none did. Either is its last act. |
| Popup.ReplaceIgnoresReply | popup.js:220-227 | A resolved send closes the popup whatever the page replied, even a reported failure. |

## Findings

| source | as written | input that shows it | evidently intended | confidence | as-written member | corrected member |
|---|---|---|---|---|---|---|
| content.js:32-39 | `replaceText` looks up the field around the current selection, but `replaceSelectedText` writes into the field recorded by the last result overlay, and the reply is `success: true` either way | a page that never showed a result overlay, with "hello" selected in a text area, and the popup's Replace sending "hi" | the field just found receives the text | high (not executed) | ContentScript.ReplaceTextIgnoredWithoutOverlay | ContentScript.HandleMessageFixed |
| options.js:296, 305, 321-336 | the connection test trims the endpoint and demands one only for OpenAI, then normalises a blank Gemini endpoint to the bare `/v1beta` path; the save stores "" and the background falls back to the default endpoint (background.js:231-233) | spaces typed into the endpoint field while OpenAI is selected, then a switch to Gemini (which keeps them and hides the field), with key "k" and model "m" | the test exercises the endpoint a rewrite will use, the default one | medium (not executed) | Options.BlankEndpointReachable | options.js:132-135 | Spaces typed into the endpoint while OpenAI is selected survive the switch to Gemini. Typing a key then gives the form the divergence below starts from. |
| Options.BlankEndpointTestDiverges | Options.TestRequestFixed |

The overlay event loop (`ContentScript.Handle`, `Replay` and
`AtMostOneOverlay`) takes the listener as a parameter, so the overlay
invariant is proved both for the handler as written and for the corrected one.
`ContentScript.HandleMessage` keeps the behaviour as written.

## Notes on the model

- The Gemini normaliser is written out twice in the source, at
  background.js:259-272 and options.js:323-335, with the same steps.
  Both copies are `Endpoint.Normalize`.
- OpenAI requests go to the stored endpoint as it is, without trimming or
  normalising.
- The popup never shows "Failed to rewrite text" when the worker answers,
  because every error the worker produces has a message (`Popup.Rewrite`).
  The same holds for the context-menu error path (`Delivery.Report`).
- The endpoint field is hidden while Gemini is selected, and the fix-ups
  replace an empty endpoint when the provider changes. A saved endpoint is
  trimmed, and a stored `""` loads as the default. So one path reaches the
  connection test with a blank Gemini endpoint: type only spaces into the
  endpoint field while OpenAI is selected, then switch to Gemini. The
  fix-ups keep the spaces because they test for `""` before trimming
  (`Options.BlankEndpointReachable`). See the second row under
  "## Findings". `Options.TestUrlMatchesRewrite` covers the forms with an
  endpoint, and `Options.TestUrlMatchesRewriteFixed` covers all Gemini forms
  under the correction.

## Left out

- `fetch`, HTTP and JSON: replies are a datatype with optional fields, and a thrown `fetch` is a `Thrown` reply.
- `temperature`, `max_tokens` and `maxOutputTokens`: floating-point and numeric request options with no effect on the logic.
- Storage callbacks, `chrome.runtime.lastError` on save, and the timing of asynchronous messages: every call completes in order, and its success is a parameter.
- DOM construction, CSS, the overlay's Copy button, focus, `input` events, and the wiring of click, keyboard and Escape listeners.
- `escapeHtml`: it delegates to the browser's HTML serialisation and only affects how the overlay text is displayed.
- The live network check in `handleTest` and its status messages: only the request it builds is modelled.
- The popup's Copy button and its clipboard fallback: browser clipboard calls with no state beyond the button caption.
- The `getSettings` message (background.js:180-196): it returns the same values `Settings.Resolve` computes.
- The `catch` in `replaceSelectedText` that copies to the clipboard: range operations are not modelled as throwing.
- Strings.Trim: whitespace is the fixed set JavaScript's `trim` removes, taken per character. Lengths count characters, not UTF-16 code units.
- ContentScript.ReplaceSelectedText: the page's document is fixed while the script runs, and the recorded field is a position in the current selection's ancestor chain, not an element reference. The source keeps a reference set when the result overlay was shown, so after the selection moves it still writes into that older field, at whatever offsets it holds then. The model cannot express a write into a field away from the current selection.
- ContentScript.ReplaceIn: a content-editable element is modelled as a text value with selection offsets, not as a DOM range.
- Prompts.MenuMode: modes are an enumeration. A `mode` string outside it, which would make `buildPrompt` print `undefined`, is not representable.
- Options.LoadForm: the provider select is modelled as holding any stored string. A real `<select>` holding an unknown value shows no option.
- Stored values are strings. Non-string values in `chrome.storage` and the `String(...)` conversions are not modelled.

=== FILE: adapter.dfy ===
/** The request adapter of the background worker (background.js
    `rewriteText`): the pre-network guards, the provider-specific request,
    the extraction of the answer and the wrapping of errors. The network is
    a parameter: a function from the request sent to the reply received. */
module Adapter {
  import opened Wrappers
  import opened Strings
  import opened Settings
  import opened Prompts
  import opened Endpoint

  const MaxLength := 10000
  const TooLongMessage := "Text is too long. Maximum length is " + NatToString(MaxLength) + " characters."
  const NoKeyMessage := "API key not configured. Please set it in the extension options."
  const ApiKeyMarker := "API key"
  const ConnectPrefix := "Failed to connect to API: "
  const StatusPrefix := "API error: "
  /** The system instruction sent with every mode but `Translate`, in its
      three sentences. */
  const KeepLanguage := "You must preserve " + "the original language of the input text."
  const TranslateOnlyIfAsked := "Do not translate unless explicitly asked to translate."
  const SameLanguage := "Keep the output in the same language as the input."
  const SystemDirective := KeepLanguage + " " + TranslateOnlyIfAsked + " " + SameLanguage

  datatype Role = System | User
  datatype ChatMessage = ChatMessage(role: Role, content: string)

  /** What goes over the wire. An OpenAI request is posted to the configured
      endpoint as given, with the key as bearer token; a Gemini request is
      posted to the normalised URL that carries the key. */
  datatype Request =
    | ChatRequest(url: string, bearer: string, model: string, messages: seq<ChatMessage>)
    | GenerateRequest(url: string, prompt: string)

  /** The parsed JSON of a reply, every field optional. */
  datatype Part = Part(text: Option<string>)
  datatype Content = Content(parts: Option<seq<Part>>)
  datatype Candidate = Candidate(content: Option<Content>)
  datatype Message = Message(content: Option<string>)
  datatype Choice = Choice(message: Option<Message>)
  datatype Body = Body(errorMessage: Option<string>, choices: Option<seq<Choice>>, candidates: Option<seq<Candidate>>)

  /** What `fetch` and `response.json()` deliver: a thrown error, or an HTTP
      status with a body (a body that fails to parse on an error status reads
      as the empty object, as the source's `.catch(() => ({}))` makes it). */
  datatype Reply = Thrown(message: string) | Response(ok: bool, statusText: string, body: Body)

  /** The OpenAI message list: one user message for translation, otherwise
      the system directive first and then the user message. */
  function ChatMessages(prompt: string, m: Mode): seq<ChatMessage> {
    if m == Translate then [ChatMessage(User, prompt)]
    else [ChatMessage(System, SystemDirective), ChatMessage(User, prompt)]
  }

  /** The Gemini prompt: the bare prompt for translation, otherwise the
      system directive, a blank line, then the prompt. */
  function GeminiPrompt(prompt: string, m: Mode): string {
    if m == Translate then prompt else SystemDirective + Separator + prompt
  }

  /** The request `rewriteText` sends for a prompt already built. */
  function RequestFor(c: Config, prompt: string, m: Mode): Request {
    match c.provider
    case OpenAI => ChatRequest(c.endpoint, c.apiKey, c.model, ChatMessages(prompt, m))
    case Gemini => GenerateRequest(GeminiUrl(c.endpoint, c.model, c.apiKey), GeminiPrompt(prompt, m))
  }

  predicate HasSystemMessage(msgs: seq<ChatMessage>) {
    exists i | 0 <= i < |msgs| :: msgs[i].role == System
  }

  /** OpenAI: the prompt is always the last message, and a system message
      carrying the directive comes first exactly when the mode is not
      translation. */
  lemma ChatDirectiveUnlessTranslate(c: Config, prompt: string, m: Mode)
    requires c.provider == OpenAI
    ensures var r := RequestFor(c, prompt, m);
            && r.ChatRequest? && r.url == c.endpoint && r.bearer == c.apiKey && r.model == c.model
            && |r.messages| == (if m == Translate then 1 else 2)
            && r.messages[|r.messages| - 1] == ChatMessage(User, prompt)
            && (HasSystemMessage(r.messages) <==> m != Translate)
            && (m != Translate ==> r.messages[0] == ChatMessage(System, SystemDirective))
  {
    var r := RequestFor(c, prompt, m);
    if m == Translate {
      assert r.messages == [ChatMessage(User, prompt)];
      assert !HasSystemMessage(r.messages);
    } else {
      assert r.messages[0].role == System;
    }
  }

  /** Gemini: the prompt always ends the text sent, and the text opens with
      the directive exactly when the mode is not translation (a translation
      prompt opens with "T", see `TranslatePromptStart`). */
  lemma GeminiDirectiveUnlessTranslate(c: Config, prompt: string, m: Mode)
    requires c.provider == Gemini
    requires m == Translate ==> |prompt| > 0 && prompt[0] == 'T'
    ensures var r := RequestFor(c, prompt, m);
            && r.GenerateRequest? && r.url == GeminiUrl(c.endpoint, c.model, c.apiKey)
            && EndsWith(r.prompt, prompt)
            && (StartsWith(r.prompt, SystemDirective + Separator) <==> m != Translate)
            && |r.prompt| == (if m == Translate then 0 else |SystemDirective + Separator|) + |prompt|
  {
    var r := RequestFor(c, prompt, m);
    var d := SystemDirective + Separator;
    if m == Translate {
      assert r.prompt == prompt;
      assert prompt[|prompt| - |prompt|..] == prompt;
      DirectiveStart(d);
      assert !StartsWith(prompt, d) by {
        if |d| <= |prompt| { assert prompt[..|d|][0] == prompt[0]; }
      }
    } else {
      assert r.prompt == d + prompt;
      EndsWithAppend(d, prompt);
    }
  }

  lemma DirectiveStart(d: string)
    requires d == SystemDirective + Separator
    ensures |d| > 0 && d[0] == 'Y'
  {
    var opening := "You must preserve ";
    assert opening[0] == 'Y';
    HeadOfConcat(opening, "the original language of the input text.");
    var k := KeepLanguage;
    HeadOfConcat(k, " ");
    HeadOfConcat(k + " ", TranslateOnlyIfAsked);
    HeadOfConcat(k + " " + TranslateOnlyIfAsked, " ");
    HeadOfConcat(k + " " + TranslateOnlyIfAsked + " ", SameLanguage);
    HeadOfConcat(SystemDirective, Separator);
  }

  lemma HeadOfConcat(a: string, b: string)
    requires |a| > 0
    ensures (a + b)[0] == a[0]
  {
  }

  /** Every translation prompt opens with the "T" of "Translate". */
  lemma TranslatePromptStart(text: string)
    ensures var prompt := BuildPrompt(text, Translate);
            |prompt| > 0 && prompt[0] == 'T'
  {
    assert TranslateLead[0] == 'T';
    HeadOfConcat(TranslateLead, "English");
    HeadOfConcat(TranslateLead + "English", ".");
    HeadOfConcat(TranslateTask, " ");
    HeadOfConcat(TranslateTask + " ", Closing(Translate));
    HeadOfConcat(Instruction(Translate), Separator);
    HeadOfConcat(Instruction(Translate) + Separator, text);
  }

  /** `choices?.[0]?.message?.content`. */
  function ChoiceText(b: Body): Option<string> {
    match b.choices
    case Some(cs) =>
      if |cs| > 0 && cs[0].message.Some? then cs[0].message.value.content else None
    case None => None
  }

  /** `candidates?.[0]?.content?.parts?.[0]?.text`. */
  function CandidateText(b: Body): Option<string> {
    match b.candidates
    case Some(cs) =>
      if |cs| > 0 && cs[0].content.Some? && cs[0].content.value.parts.Some?
         && |cs[0].content.value.parts.value| > 0
      then cs[0].content.value.parts.value[0].text
      else None
    case None => None
  }

  function NoResultMessage(p: Provider): string {
    match p
    case OpenAI => "No result returned from API"
    case Gemini => "No result returned from Gemini API"
  }

  /** The answer of a successful response: the provider's text field,
      trimmed; absent or blank is an error. */
  function Extract(p: Provider, b: Body): (r: Result<string>)
    ensures var field := if p == OpenAI then ChoiceText(b) else CandidateText(b);
            && (r.Ok? <==> field.Some? && !IsBlank(field.value))
            && (r.Ok? ==> r.value == Trim(field.value) && r.value != "" && IsTrimmed(r.value))
            && (r.Err? ==> r.message == NoResultMessage(p))
  {
    var field := if p == OpenAI then ChoiceText(b) else CandidateText(b);
    match field
    case Some(t) => if Trim(t) != "" then Ok(Trim(t)) else Err(NoResultMessage(p))
    case None => Err(NoResultMessage(p))
  }

  /** The message thrown for a non-ok response: the provider's own
      `error.message` when it is non-empty, else one built from the status. */
  function StatusError(statusText: string, b: Body): (r: string)
    ensures b.errorMessage.Some? && b.errorMessage.value != "" ==> r == b.errorMessage.value
    ensures b.errorMessage.None? || b.errorMessage.value == "" ==> r == StatusPrefix + statusText
    ensures r != ""
  {
    match b.errorMessage
    case Some(e) => if e != "" then e else StatusPrefix + statusText
    case None => StatusPrefix + statusText
  }

  /** The body of the `try` block: the outcome of one exchange, before the
      `catch` wraps its error. */
  function Exchange(p: Provider, reply: Reply): (r: Result<string>)
    ensures reply.Thrown? ==> r == Err(reply.message)
    ensures reply.Response? && !reply.ok ==> r == Err(StatusError(reply.statusText, reply.body))
    ensures reply.Response? && reply.ok ==> r == Extract(p, reply.body)
  {
    match reply
    case Thrown(e) => Err(e)
    case Response(ok, statusText, body) =>
      if !ok then Err(StatusError(statusText, body)) else Extract(p, body)
  }

  /** The `catch` of `rewriteText`: a message mentioning "API key" passes
      through, any other is prefixed. Either way the caller can still read
      the original message at the end, and can tell which case it was. */
  function Wrap(e: string): (r: string)
    ensures EndsWith(r, e)
    ensures r == e <==> Contains(e, ApiKeyMarker)
    ensures r != e ==> StartsWith(r, ConnectPrefix)
    ensures |r| == (if Contains(e, ApiKeyMarker) then |e| else |ConnectPrefix| + |e|)
    ensures Contains(r, ApiKeyMarker) || StartsWith(r, ConnectPrefix)
    ensures r != ""
  {
    if Contains(e, ApiKeyMarker) then e
    else
      EndsWithAppend(ConnectPrefix, e);
      assert (ConnectPrefix + e)[..|ConnectPrefix|] == ConnectPrefix;
      assert |ConnectPrefix + e| > |e|;
      ConnectPrefix + e
  }

  /** One call of `rewriteText`: whether the settings were read, the request
      sent (if any), and what the call returned or threw. */
  datatype Run = Run(settingsRead: bool, request: Option<Request>, result: Result<string>)

  function RewriteText(text: string, m: Mode, items: Store, network: Request -> Reply): (run: Run)
    // Too-long text fails first: no settings, no request.
    ensures |text| > MaxLength <==> !run.settingsRead
    ensures |text| > MaxLength ==> run == Run(false, None, Err(TooLongMessage))
    // A missing key fails next, still without a request.
    ensures |text| <= MaxLength && Resolve(items).apiKey == "" ==> run == Run(true, None, Err(NoKeyMessage))
    // Otherwise exactly one request, shaped for the resolved settings.
    ensures run.request.Some? <==> |text| <= MaxLength && Resolve(items).apiKey != ""
    ensures run.request.Some? ==> run.request.value == RequestFor(Resolve(items), BuildPrompt(text, m), m)
    // A result is the trimmed, non-empty text of a successful response.
    ensures run.result.Ok? ==>
              && run.request.Some?
              && var reply := network(run.request.value);
              && reply.Response? && reply.ok
              && run.result == Extract(Resolve(items).provider, reply.body)
    ensures run.result.Ok? ==> run.result.value != "" && IsTrimmed(run.result.value)
    // Every error is recognisable: a guard's message, one that mentions the
    // API key, or a connection failure.
    ensures run.result.Err? ==> run.result.message != ""
    ensures run.result.Err? ==>
              || run.result.message == TooLongMessage
              || run.result.message == NoKeyMessage
              || Contains(run.result.message, ApiKeyMarker)
              || StartsWith(run.result.message, ConnectPrefix)
    // Once a request is sent, the outcome is the exchange's: its answer, or
    // its error wrapped.
    ensures run.request.Some? ==>
              var x := Exchange(Resolve(items).provider, network(run.request.value));
              && (x.Ok? ==> run.result == x)
              && (x.Err? ==> run.result == Err(Wrap(x.message)))
  {
    if |text| > MaxLength then Run(false, None, Err(TooLongMessage))
    else
      var c := Resolve(items);
      if c.apiKey == "" then Run(true, None, Err(NoKeyMessage))
      else
        var req := RequestFor(c, BuildPrompt(text, m), m);
        match Exchange(c.provider, network(req))
        case Ok(r) => Run(true, Some(req), Ok(r))
        case Err(e) => Run(true, Some(req), Err(Wrap(e)))
  }

  /** The body in which a provider returns `answer`. */
  function AnswerBody(p: Provider, answer: string): Body {
    match p
    case OpenAI => Body(None, Some([Choice(Some(Message(Some(answer))))]), None)
    case Gemini => Body(None, None, Some([Candidate(Some(Content(Some([Part(Some(answer))]))))]))
  }

  /** Extraction reads back the answer a provider put in its body, trimmed;
      a blank answer is reported as no result. */
  lemma ExtractAnswer(p: Provider, answer: string)
    ensures !IsBlank(answer) ==> Extract(p, AnswerBody(p, answer)) == Ok(Trim(answer))
    ensures IsBlank(answer) ==> Extract(p, AnswerBody(p, answer)) == Err(NoResultMessage(p))
  {
    var b := AnswerBody(p, answer);
    if p == OpenAI {
      assert ChoiceText(b) == Some(answer);
    } else {
      assert CandidateText(b) == Some(answer);
    }
  }

  /** With a key configured and text within the limit, an answer without
      surrounding whitespace comes back to the caller exactly as the
      provider sent it. */
  lemma AnswerReachesCaller(text: string, m: Mode, items: Store, network: Request -> Reply,
                            statusText: string, answer: string)
    requires |text| <= MaxLength && Resolve(items).apiKey != ""
    requires answer != "" && IsTrimmed(answer)
    requires forall r: Request :: network(r) == Response(true, statusText, AnswerBody(Resolve(items).provider, answer))
    ensures RewriteText(text, m, items, network).result == Ok(answer)
  {
    var p := Resolve(items).provider;
    assert !IsBlank(answer) by { assert !IsSpace(answer[0]); }
    ExtractAnswer(p, answer);
    TrimOfTrimmed(answer);
    forall r: Request ensures Exchange(p, network(r)) == Ok(answer) {
    }
  }

  /** A provider that answers with a non-ok status reaches the caller as
      its own error message when it gave one, else as "API error: " with the
      status text; in both cases through the `catch` wrapper. */
  lemma ErrorStatusReachesCaller(text: string, m: Mode, items: Store, network: Request -> Reply,
                                 statusText: string, b: Body)
    requires |text| <= MaxLength && Resolve(items).apiKey != ""
    requires forall r: Request :: network(r) == Response(false, statusText, b)
    ensures RewriteText(text, m, items, network).result == Err(Wrap(StatusError(statusText, b)))
  {
    var p := Resolve(items).provider;
    forall r: Request ensures Exchange(p, network(r)) == Err(StatusError(statusText, b)) {
    }
  }
}

=== FILE: delivery.dfy ===
/** The context-menu path of the background worker (background.js,
    `contextMenus.onClicked`): rewrite the selection, then deliver the result
    to the page, retrying once and falling back to the clipboard; or report
    the error. Each browser call's success is an input, and the handler's
    behaviour is the sequence of calls it makes. */
module Delivery {
  import opened Wrappers
  import opened Strings
  import opened Settings
  import opened Prompts
  import opened Adapter

  /** Which of the browser calls succeed on this tab. The first script
      injection's outcome is ignored by the source, so it is not listed. */
  datatype Tab = Tab(
    sendOk: bool,            // first `showResult` message
    reinjectOk: bool,        // injection before the retry
    resendOk: bool,          // retried `showResult` message
    clipboardOk: bool,       // injected clipboard copy
    notifications: bool,     // `chrome.notifications` is available
    errorSendOk: bool)       // the `showError` message

  datatype Action =
    | Inject
    | ShowResult(originalText: string, result: string, mode: Mode)
    | Wait(ms: nat)
    | CopyToClipboard(text: string)
    | Notify(title: string, message: string)
    | ShowError(message: string)

  const RetryDelay := 100
  const CopiedNotice := "Result copied to clipboard!"
  const FailedFallback := "Failed to rewrite text"

  /** The result reached the page's overlay, on the first try or the retry. */
  predicate Delivered(tab: Tab) {
    tab.sendOk || (tab.reinjectOk && tab.resendOk)
  }

  /** Delivering a rewritten `result` to the tab. */
  function Deliver(selection: string, result: string, mode: Mode, tab: Tab): (trace: seq<Action>)
    ensures |trace| >= 2 && trace[0] == Inject && trace[1] == ShowResult(selection, result, mode)
  {
    var show := ShowResult(selection, result, mode);
    [Inject, show] +
    if tab.sendOk then []
    else
      [Inject] +
      (if tab.reinjectOk then [Wait(RetryDelay), show] else []) +
      (if tab.reinjectOk && tab.resendOk then []
       else
         [CopyToClipboard(result)] +
         (if tab.clipboardOk && tab.notifications then [Notify("Ai Writer", CopiedNotice)] else []))
  }

  /** Reporting a rewrite error to the tab: one error message and nothing
      else to the page, a notification exactly when that message fails and
      notifications exist, and never a script injection. */
  function Report(message: string, tab: Tab): (trace: seq<Action>)
    ensures |trace| == (if !tab.errorSendOk && tab.notifications then 2 else 1)
    ensures trace[0] == ShowError(MessageOr(message, FailedFallback))
    ensures |trace| == 2 ==> trace[1] == Notify("Ai Writer Error", MessageOr(message, FailedFallback))
    ensures forall i | 0 <= i < |trace| :: trace[i].ShowError? || trace[i].Notify?
  {
    var text := MessageOr(message, FailedFallback);
    [ShowError(text)] +
    if !tab.errorSendOk && tab.notifications then [Notify("Ai Writer Error", text)] else []
  }

  /** One click: the rewrite that ran (none without a selection) and the
      calls made afterwards. */
  datatype Click = Click(run: Option<Run>, trace: seq<Action>)

  function OnMenuClick(selection: string, menuId: string, items: Store,
                       network: Request -> Reply, tab: Tab): (c: Click)
    ensures selection == "" <==> c.run.None?
    ensures selection == "" ==> c.trace == []
    ensures c.run.Some? ==> c.run.value == RewriteText(selection, MenuMode(menuId), items, network)
    ensures c.run.Some? && c.run.value.result.Ok? ==>
              c.trace == Deliver(selection, c.run.value.result.value, MenuMode(menuId), tab)
    ensures c.run.Some? && c.run.value.result.Err? ==> c.trace == Report(c.run.value.result.message, tab)
  {
    if selection == "" then Click(None, [])
    else
      var mode := MenuMode(menuId);
      var run := RewriteText(selection, mode, items, network);
      match run.result
      case Ok(result) => Click(Some(run), Deliver(selection, result, mode, tab))
      case Err(message) => Click(Some(run), Report(message, tab))
  }

  /** The kinds of call a delivery trace is counted by. */
  datatype Kind = Injecting | Showing | Copying

  predicate IsKind(a: Action, k: Kind) {
    match k
    case Injecting => a.Inject?
    case Showing => a.ShowResult?
    case Copying => a.CopyToClipboard?
  }

  /** How many calls of kind `k` a trace makes. */
  function Count(trace: seq<Action>, k: Kind): nat {
    if trace == [] then 0
    else (if IsKind(trace[0], k) then 1 else 0) + Count(trace[1..], k)
  }

  lemma {:induction false} CountAppend(a: seq<Action>, b: seq<Action>, k: Kind)
    ensures Count(a + b, k) == Count(a, k) + Count(b, k)
  {
    if a != [] {
      assert (a + b)[0] == a[0] && (a + b)[1..] == a[1..] + b;
      assert Count(a + b, k) == (if IsKind(a[0], k) then 1 else 0) + Count(a[1..] + b, k);
      CountAppend(a[1..], b, k);
    } else {
      assert a + b == b;
    }
  }

  lemma {:induction false} CountNone(t: seq<Action>, k: Kind)
    requires forall i | 0 <= i < |t| :: !IsKind(t[i], k)
    ensures Count(t, k) == 0
  {
    if t != [] {
      assert !IsKind(t[0], k);
      assert forall i | 0 <= i < |t| - 1 :: t[1..][i] == t[i + 1];
      CountNone(t[1..], k);
    }
  }

  /** A trace of one or two calls, counted directly. */
  lemma CountShort(t: seq<Action>, k: Kind)
    requires |t| <= 2
    ensures Count(t, k) == (if |t| > 0 && IsKind(t[0], k) then 1 else 0) + (if |t| > 1 && IsKind(t[1], k) then 1 else 0)
  {
    if |t| > 0 {
      assert |t| == 1 ==> t[1..] == [];
      assert |t| == 2 ==> t[1..][1..] == [];
    }
  }

  predicate Has(trace: seq<Action>, a: Action) {
    exists i | 0 <= i < |trace| :: trace[i] == a
  }

  /** The trace falls back to the clipboard. */
  predicate Copies(trace: seq<Action>) {
    Count(trace, Copying) > 0
  }

  /** Delivery injects the script once, and a second time only when the
      first message failed; the result is sent once, and a second time only
      when that re-injection worked; the clipboard is tried at most once,
      exactly when neither message reached the page. Every message carries
      the selection, the result and the mode. */
  lemma DeliverSends(selection: string, result: string, mode: Mode, tab: Tab)
    ensures var t := Deliver(selection, result, mode, tab);
            && Count(t, Showing) == (if !tab.sendOk && tab.reinjectOk then 2 else 1)
            && Count(t, Injecting) == (if tab.sendOk then 1 else 2)
            && Count(t, Copying) == (if Delivered(tab) then 0 else 1)
            && forall i | 0 <= i < |t| && t[i].ShowResult? :: t[i] == ShowResult(selection, result, mode)
  {
    var show := ShowResult(selection, result, mode);
    var t := Deliver(selection, result, mode, tab);
    var head := [Inject, show];
    forall k: Kind ensures Count(head, k) == (if k == Copying then 0 else 1) {
      CountShort(head, k);
    }
    if !tab.sendOk {
      var retry := if tab.reinjectOk then [Wait(RetryDelay), show] else [];
      var notice := if tab.clipboardOk && tab.notifications then [Notify("Ai Writer", CopiedNotice)] else [];
      var copy := if tab.reinjectOk && tab.resendOk then [] else [CopyToClipboard(result)] + notice;
      assert t == head + ([Inject] + retry + copy);
      forall k: Kind ensures Count([Inject], k) == (if k == Injecting then 1 else 0) {
        CountShort([Inject], k);
      }
      forall k: Kind ensures Count(retry, k) == (if tab.reinjectOk && k == Showing then 1 else 0) {
        CountShort(retry, k);
      }
      forall k: Kind ensures Count(copy, k) == (if copy != [] && k == Copying then 1 else 0) {
        if copy != [] {
          assert copy == [CopyToClipboard(result)] + notice;
          CountShort(notice, k);
          CountShort([CopyToClipboard(result)], k);
          CountAppend([CopyToClipboard(result)], notice, k);
        }
      }
      forall k: Kind ensures Count(t, k) == Count(head, k) + Count([Inject], k) + Count(retry, k) + Count(copy, k) {
        CountAppend([Inject], retry, k);
        CountAppend([Inject] + retry, copy, k);
        CountAppend(head, [Inject] + retry + copy, k);
      }
    } else {
      assert t == head;
    }
  }

  /** The clipboard fallback runs exactly when the result could not be
      delivered, and the "copied" notice needs both a working copy and the
      notifications API. */
  lemma ClipboardIffUndelivered(selection: string, result: string, mode: Mode, tab: Tab)
    ensures var t := Deliver(selection, result, mode, tab);
            && (Copies(t) <==> !Delivered(tab))
            && (Copies(t) ==> Has(t, CopyToClipboard(result)))
            && (Has(t, Notify("Ai Writer", CopiedNotice)) <==> !Delivered(tab) && tab.clipboardOk && tab.notifications)
  {
    var t := Deliver(selection, result, mode, tab);
    var n := Notify("Ai Writer", CopiedNotice);
    DeliverSends(selection, result, mode, tab);
    if Delivered(tab) {
      assert forall i | 0 <= i < |t| :: t[i] != n;
    } else {
      assert t[|t| - 1] == n || t[|t| - 1] == CopyToClipboard(result);
      if tab.clipboardOk && tab.notifications {
        assert t[|t| - 1] == n && t[|t| - 2] == CopyToClipboard(result);
      } else {
        assert t[|t| - 1] == CopyToClipboard(result);
        assert forall i | 0 <= i < |t| :: t[i] != n;
      }
    }
  }

  /** Neither the error path nor a missing selection sends a result or
      injects a script. */
  lemma NoResultWithoutRewrite(selection: string, menuId: string, items: Store, network: Request -> Reply, tab: Tab)
    ensures var c := OnMenuClick(selection, menuId, items, network, tab);
            (c.run.None? || c.run.value.result.Err?) ==>
              Count(c.trace, Showing) == 0 && Count(c.trace, Injecting) == 0 && !Has(c.trace, Inject)
  {
    var c := OnMenuClick(selection, menuId, items, network, tab);
    if c.run.None? || c.run.value.result.Err? {
      CountNone(c.trace, Showing);
      CountNone(c.trace, Injecting);
    }
  }
}

=== FILE: endpoint.dfy ===
/** The Gemini base-URL normaliser, written out twice in the source with the
    same steps (background.js `rewriteText`, options.js `handleTest`), and
    the request URL built from it. */
module Endpoint {
  import opened Strings
  import opened Settings

  const Models := "/models"
  const V1Beta := "/v1beta"
  const V1 := "/v1"

  /** The base URL names an API version. */
  predicate HasVersion(s: string) {
    EndsWith(s, V1Beta) || EndsWith(s, V1)
  }

  /** Step 1: `if (baseUrl.endsWith('/')) baseUrl = baseUrl.slice(0, -1)`. */
  function DropTrailingSlash(b: string): string {
    if EndsWith(b, "/") then b[..|b| - 1] else b
  }

  /** Step 2: when the URL ends in `/models`, `baseUrl.replace('/models', '')`
      removes the FIRST `/models` in it, which need not be the final one. */
  function DropModels(b: string): string {
    if EndsWith(b, Models) then ReplaceFirst(b, Models, "") else b
  }

  /** Step 3: append `v1beta` or `/v1beta` unless a version is present. */
  function EnsureVersion(b: string): (r: string)
    ensures HasVersion(r)
    ensures HasVersion(b) ==> r == b
    // An unversioned URL is kept and gains `/v1beta`, sharing a trailing slash.
    ensures StartsWith(r, b)
    ensures !HasVersion(b) ==> EndsWith(r, V1Beta) && |r| == |b| + (if EndsWith(b, "/") then |V1Beta| - 1 else |V1Beta|)
  {
    if !HasVersion(b) then
      if EndsWith(b, "/") then
        assert b + "v1beta" == b[..|b| - 1] + V1Beta;
        EndsWithAppend(b[..|b| - 1], V1Beta);
        b + "v1beta"
      else
        EndsWithAppend(b, V1Beta);
        b + V1Beta
    else b
  }

  /** The normalised Gemini base URL. Whatever the input, the result names
      an API version. */
  function Normalize(endpoint: string): (r: string)
    ensures HasVersion(r)
    ensures StartsWith(r, DropModels(DropTrailingSlash(Trim(endpoint))))
  {
    EnsureVersion(DropModels(DropTrailingSlash(Trim(endpoint))))
  }

  /** The `generateContent` URL a Gemini request is posted to. */
  function GeminiUrl(endpoint: string, model: string, apiKey: string): (url: string)
    ensures StartsWith(url, Normalize(endpoint) + Models + "/")
    ensures EndsWith(url, ":generateContent?key=" + apiKey)
    // Between the two sits exactly the model name.
    ensures |url| == |Normalize(endpoint) + Models + "/"| + |model| + |":generateContent?key=" + apiKey|
    ensures url[|Normalize(endpoint) + Models + "/"|..][..|model|] == model
  {
    ModelUrl(Normalize(endpoint) + Models + "/", model, ":generateContent?key=" + apiKey)
  }

  /** A model name between a fixed head and tail. */
  function ModelUrl(head: string, model: string, tail: string): (url: string)
    ensures StartsWith(url, head) && EndsWith(url, tail)
    ensures |url| == |head| + |model| + |tail|
    ensures url[|head|..][..|model|] == model
  {
    var url := head + model + tail;
    assert url == (head + model) + tail;
    EndsWithAppend(head + model, tail);
    assert url[..|head|] == head;
    assert url[|head|..][..|model|] == model;
    url
  }

  lemma VersionedLastChar(s: string)
    requires HasVersion(s)
    ensures |s| > 0 && (s[|s| - 1] == 'a' || s[|s| - 1] == '1')
  {
    if EndsWith(s, V1Beta) {
      assert s[|s| - 1] == s[|s| - 7..][6];
    } else {
      assert s[|s| - 1] == s[|s| - 3..][2];
    }
  }

  /** An endpoint without surrounding whitespace that already names a
      version comes back unchanged. */
  lemma NormalizeKeepsVersioned(e: string)
    requires IsTrimmed(e) && HasVersion(e)
    ensures Normalize(e) == e
  {
    TrimOfTrimmed(e);
    VersionedLastChar(e);
    assert !EndsWith(e, "/") by { assert e[|e| - 1..] == [e[|e| - 1]]; }
    assert !EndsWith(e, Models) by { assert |e| < 7 || e[|e| - 7..][6] == e[|e| - 1]; }
  }

  /** Normalising twice changes nothing, provided the first result does not
      start with whitespace (see `NotIdempotent` for one that does). */
  lemma NormalizeIdempotent(e: string)
    ensures Normalize(e) == [] || !IsSpace(Normalize(e)[0]) ==> Normalize(Normalize(e)) == Normalize(e)
  {
    var r := Normalize(e);
    if r == [] || !IsSpace(r[0]) {
      VersionedLastChar(r);
      assert IsTrimmed(r);
      NormalizeKeepsVersioned(r);
    }
  }

  /** Removing the first `/models` from `"/models /models"` leaves a leading
      space, which the next normalisation trims away: the first result is
      `" /models/v1beta"` and the second `"/models/v1beta"`. */
  lemma NotIdempotent()
    ensures Normalize(Models + " " + Models) == " " + Models + V1Beta
    ensures Normalize(" " + Models + V1Beta) == Models + V1Beta
  {
    FirstPass(Models + " " + Models);
    SecondPass(" " + Models + V1Beta, Models + V1Beta);
  }

  lemma FirstPass(s: string)
    requires s == Models + " " + Models
    ensures Normalize(s) == " " + Models + V1Beta
  {
    PairUntouchedByTrim(s);
    PairLosesFirstModels(s);
    UnversionedGetsV1Beta(" " + Models);
  }

  lemma PairUntouchedByTrim(s: string)
    requires s == Models + " " + Models
    ensures DropTrailingSlash(Trim(s)) == s
  {
    assert IsTrimmed(s) by { assert s[0] == '/' && s[|s| - 1] == 's'; }
    TrimOfTrimmed(s);
    assert s[|s| - 1..] == "s";
  }

  lemma PairLosesFirstModels(s: string)
    requires s == Models + " " + Models
    ensures DropModels(s) == " " + Models
  {
    EndsWithAppend(Models + " ", Models);
    assert OccursAt(s, Models, 0) by { assert s[..|Models|] == Models; }
    ReplaceFirstAt(s, Models, 0);
    assert s[|Models|..] == " " + Models;
  }

  lemma UnversionedGetsV1Beta(rest: string)
    requires rest == " " + Models
    ensures EnsureVersion(rest) == rest + V1Beta
  {
    assert rest[|rest| - 1] == 's';
    if HasVersion(rest) { VersionedLastChar(rest); }
    assert rest[|rest| - 1..] == "s";
  }

  lemma SecondPass(s: string, x: string)
    requires x == Models + V1Beta && s == " " + x
    ensures Normalize(s) == x
  {
    EndsWithAppend(Models, V1Beta);
    assert IsTrimmed(x) && HasVersion(x);
    assert s == [' '] + x;
    TrimLeadingSpace(' ', x);
    NormalizeKeepsVersioned(x);
  }

  /** The `/models/` a user might paste after the default endpoint is
      removed again: its only occurrence is the one at the end. */
  lemma NormalizeStripsModels()
    ensures Normalize(GeminiDefaultEndpoint + Models + "/") == GeminiDefaultEndpoint
  {
    var p := GeminiDefaultEndpoint;
    DefaultEndpointShape(p);
    StripSlash(p, p + Models + "/");
    StripModels(p, p + Models);
    EndsWithAppend(GeminiHost, V1Beta);
  }

  /** The default Gemini endpoint is already normal. */
  lemma DefaultEndpointNormal()
    ensures Normalize(GeminiDefaultEndpoint) == GeminiDefaultEndpoint
  {
    var p := GeminiDefaultEndpoint;
    DefaultEndpointShape(p);
    assert p[|p| - 1] == 'a';
    EndsWithAppend(GeminiHost, V1Beta);
    NormalizeKeepsVersioned(p);
  }

  lemma DefaultEndpointShape(p: string)
    requires p == GeminiDefaultEndpoint
    ensures |p| >= 3 && 'd' !in p && p[0] == 'h'
    ensures forall j | |p| - 3 <= j < |p| :: p[j] != '/'
  {
    assert 'd' !in GeminiHost && 'd' !in V1Beta;
    assert p[|p| - 3..] == "eta";
    forall j | |p| - 3 <= j < |p| ensures p[j] != '/' {
      assert p[j] == p[|p| - 3..][j - |p| + 3];
    }
  }

  lemma StripSlash(p: string, s: string)
    requires |p| > 0 && p[0] == 'h' && s == p + Models + "/"
    ensures DropTrailingSlash(Trim(s)) == p + Models
  {
    assert s[0] == 'h' && s[|s| - 1] == '/';
    TrimOfTrimmed(s);
    assert EndsWith(s, "/");
    assert s[..|s| - 1] == p + Models;
  }

  lemma StripModels(p: string, u: string)
    requires u == p + Models && |p| >= 3 && 'd' !in p
    requires forall j | |p| - 3 <= j < |p| :: p[j] != '/'
    ensures DropModels(u) == p
  {
    EndsWithAppend(p, Models);
    assert Models[3] == 'd' && Models[0] == '/';
    OnlyOccurrenceAppended(p, Models, 3);
    assert OccursAt(u, Models, |p|);
    ReplaceFirstAt(u, Models, |p|);
    assert u[..|p|] + u[|p| + |Models|..] == p;
  }

  /** `t` appended to `p` occurs nowhere before the append point when `p`
      lacks the character `t[k]` and none of the last `k` characters of
      `p` can start `t`. */
  lemma OnlyOccurrenceAppended(p: string, t: string, k: nat)
    requires k < |t| && t[k] !in p
    requires forall j | 0 <= j < |p| && |p| - k <= j :: p[j] != t[0]
    ensures forall j: nat | j < |p| :: !OccursAt(p + t, t, j)
  {
    var u := p + t;
    forall j: nat | j < |p| ensures !OccursAt(u, t, j) {
      if j + |t| <= |u| {
        var w := u[j..j + |t|];
        assert w[k] == u[j + k] && w[0] == u[j];
        if j + k < |p| {
          assert u[j + k] == p[j + k];
        } else {
          assert u[j] == p[j];
        }
      }
    }
  }
}

=== FILE: options.dfy ===
/** The options page (options.js): the one-time migration of the legacy
    key, the form loaded from storage, the provider-switch fix-ups, clearing
    a key, and the validation and merge performed by Save and by the
    connection test. The form is a value; each handler returns the new form
    and the new store. */
module Options {
  import opened Wrappers
  import opened Strings
  import opened Settings
  import opened Adapter
  import opened Endpoint

  /** The form's fields. `provider` is the select's value; the key input is
      never filled from storage, `hasStoredKey` records whether a usable key
      is stored for the selected provider. */
  datatype Form = Form(provider: string, keyInput: string, endpoint: string, model: string, hasStoredKey: bool)

  /** The key item the page reads and clears: Gemini's for `'gemini'`,
      OpenAI's for anything else. */
  function CurrentKeyItem(provider: string): string {
    KeyItem(ProviderOf(provider))
  }

  /** A stored value counts as a key when it is not blank. */
  predicate HasValidStoredKey(items: Store, k: string) {
    k in items && !IsBlank(items[k])
  }

  /** Whether the legacy single key is to be migrated. */
  predicate NeedsMigration(items: Store) {
    LegacyKeyItem in items && !IsBlank(items[LegacyKeyItem])
  }

  /** The value a per-provider key gets from the migration: kept when
      defined, the legacy key when the provider is the stored one, else
      empty. */
  function MigratedKey(items: Store, p: Provider): string
    requires LegacyKeyItem in items
  {
    if KeyItem(p) in items then items[KeyItem(p)]
    else if StoredProviderName(items) == ProviderName(p) then items[LegacyKeyItem]
    else ""
  }

  /** The legacy `apiKey` is split into the per-provider keys and removed,
      once, when it is not blank. */
  function Migrate(items: Store): (r: Store)
    ensures !NeedsMigration(items) ==> r == items
    ensures NeedsMigration(items) ==>
              && LegacyKeyItem !in r
              && OpenAIKeyItem in r && GeminiKeyItem in r
              && (forall p: Provider :: KeyItem(p) in items ==> r[KeyItem(p)] == items[KeyItem(p)])
              && (forall p: Provider :: KeyItem(p) !in items ==>
                    r[KeyItem(p)] == (if StoredProviderName(items) == ProviderName(p) then items[LegacyKeyItem] else ""))
              && (forall k | k in items && k != LegacyKeyItem && k != OpenAIKeyItem && k != GeminiKeyItem ::
                    k in r && r[k] == items[k])
              && (forall k | k in r :: k in items || k == OpenAIKeyItem || k == GeminiKeyItem)
  {
    if !NeedsMigration(items) then items
    else
      var r := (items[OpenAIKeyItem := MigratedKey(items, OpenAI)][GeminiKeyItem := MigratedKey(items, Gemini)]) - {LegacyKeyItem};
      assert forall p: Provider :: r[KeyItem(p)] == MigratedKey(items, p);
      r
  }

  /** The migration runs once: afterwards there is no legacy key left. */
  lemma MigrateIdempotent(items: Store)
    ensures Migrate(Migrate(items)) == Migrate(items)
  {
  }

  /** For the provider names the page can store (none, `'openai'` or
      `'gemini'`), the migration changes nothing the background worker
      resolves: the same provider, key, endpoint and model. */
  lemma MigratePreservesResolve(items: Store)
    requires ProviderItem !in items || items[ProviderItem] in {"", "openai", "gemini"}
    ensures Resolve(Migrate(items)) == Resolve(items)
  {
    if NeedsMigration(items) {
      var r := Migrate(items);
      var p := Resolve(items).provider;
      assert StoredProviderName(items) == ProviderName(p);
      assert ResolveApiKey(r, p) == ResolveApiKey(items, p);
    }
  }

  /** The default endpoint and model of the provider named on the form. */
  function FormDefaultEndpoint(provider: string): string {
    DefaultEndpoint(ProviderOf(provider))
  }

  function FormDefaultModel(provider: string): string {
    DefaultModel(ProviderOf(provider))
  }

  const GeminiModelPrefix := "gemini-"
  const OpenAIModelPrefix := "gpt-"
  const OpenAIHostMark := "openai.com"
  const GeminiHostMark := "generativelanguage"

  /** The mark of the provider not named on the form, in an endpoint and
      in a model name. */
  function OtherHostMark(provider: string): string {
    if provider == "gemini" then OpenAIHostMark else GeminiHostMark
  }

  function OtherModelPrefix(provider: string): string {
    if provider == "gemini" then OpenAIModelPrefix else GeminiModelPrefix
  }

  /** `updateUIForProvider`: an endpoint or model that is empty or clearly
      belongs to the other provider is replaced by the selected provider's
      default; anything else is left as typed. */
  function FixUp(f: Form): (g: Form)
    ensures g.provider == f.provider && g.keyInput == f.keyInput && g.hasStoredKey == f.hasStoredKey
    ensures f.provider == "gemini" ==>
              && g.endpoint != "" && !Contains(g.endpoint, OpenAIHostMark)
              && g.model != "" && !StartsWith(g.model, OpenAIModelPrefix)
              && (f.endpoint != "" && !Contains(f.endpoint, OpenAIHostMark) ==> g.endpoint == f.endpoint)
              && (f.model != "" && !StartsWith(f.model, OpenAIModelPrefix) ==> g.model == f.model)
    ensures f.provider != "gemini" ==>
              && g.endpoint != "" && !Contains(g.endpoint, GeminiHostMark)
              && g.model != "" && !StartsWith(g.model, GeminiModelPrefix)
              && (f.endpoint != "" && !Contains(f.endpoint, GeminiHostMark) ==> g.endpoint == f.endpoint)
              && (f.model != "" && !StartsWith(f.model, GeminiModelPrefix) ==> g.model == f.model)
  {
    DefaultsAreClean();
    if f.provider == "gemini" then
      f.(endpoint := if f.endpoint == "" || Contains(f.endpoint, OpenAIHostMark) then GeminiDefaultEndpoint else f.endpoint,
         model := if f.model == "" || StartsWith(f.model, OpenAIModelPrefix) then GeminiDefaultModel else f.model)
    else
      f.(endpoint := if f.endpoint == "" || Contains(f.endpoint, GeminiHostMark) then OpenAIDefaultEndpoint else f.endpoint,
         model := if f.model == "" || StartsWith(f.model, GeminiModelPrefix) then OpenAIDefaultModel else f.model)
  }

  /** Each provider's defaults carry no mark of the other provider, so the
      fix-up never undoes itself. */
  lemma DefaultsAreClean()
    ensures !Contains(GeminiDefaultEndpoint, OpenAIHostMark)
    ensures !Contains(OpenAIDefaultEndpoint, GeminiHostMark)
    ensures !StartsWith(GeminiDefaultModel, OpenAIModelPrefix)
    ensures !StartsWith(OpenAIDefaultModel, GeminiModelPrefix)
  {
    GeminiEndpointClean(GeminiDefaultEndpoint);
    OpenAIEndpointClean(OpenAIDefaultEndpoint);
    assert GeminiDefaultModel[1] != OpenAIModelPrefix[1];
    assert OpenAIDefaultModel[1] != GeminiModelPrefix[1];
  }

  /** No "o" is followed by "p" in the Gemini endpoint. */
  lemma GeminiEndpointClean(e: string)
    requires e == GeminiDefaultEndpoint
    ensures !Contains(e, OpenAIHostMark)
  {
    var a := "https://";
    var b := "generativelanguage.googleapis.com";
    assert NoPair(a, 'o', 'p');
    assert NoPair(b, 'o', 'p');
    assert NoPair(V1Beta, 'o', 'p');
    NoPairConcat(a, b, 'o', 'p');
    NoPairConcat(a + b, V1Beta, 'o', 'p');
    NoPairExcludes(e, OpenAIHostMark);
  }

  /** The OpenAI endpoint has no "g" at all. */
  lemma OpenAIEndpointClean(e: string)
    requires e == OpenAIDefaultEndpoint
    ensures !Contains(e, GeminiHostMark)
  {
    assert 'g' !in OpenAIHost && 'g' !in "/v1/chat/completions";
    NoCharExcludes(e, GeminiHostMark, 0);
  }

  /** Fixing up a fixed-up form changes nothing. */
  lemma FixUpIdempotent(f: Form)
    ensures FixUp(FixUp(f)) == FixUp(f)
  {
  }

  /** `loadSettings`: migrate, select the stored provider, show whether a
      key is stored for it, fill endpoint and model from storage or the
      provider's defaults, then apply the fix-ups. */
  function LoadForm(items: Store): (r: (Store, Form))
    ensures r.0 == Migrate(items)
    ensures r.1.provider == StoredProviderName(items) && r.1.keyInput == ""
    ensures r.1.hasStoredKey <==> HasValidStoredKey(r.0, CurrentKeyItem(r.1.provider))
    ensures r.1.endpoint != "" && r.1.model != ""
    // An absent or empty stored value gives the provider's default ...
    ensures EndpointItem !in items || items[EndpointItem] == "" ==> r.1.endpoint == FormDefaultEndpoint(r.1.provider)
    ensures ModelItem !in items || items[ModelItem] == "" ==> r.1.model == FormDefaultModel(r.1.provider)
    // ... and so does one marked as the other provider's; any other is shown as stored.
    ensures EndpointItem in items && items[EndpointItem] != "" ==>
              r.1.endpoint == (if Contains(items[EndpointItem], OtherHostMark(r.1.provider))
                               then FormDefaultEndpoint(r.1.provider) else items[EndpointItem])
    ensures ModelItem in items && items[ModelItem] != "" ==>
              r.1.model == (if StartsWith(items[ModelItem], OtherModelPrefix(r.1.provider))
                            then FormDefaultModel(r.1.provider) else items[ModelItem])
  {
    var stored := Migrate(items);
    var provider := StoredProviderName(stored);
    var key := OrElse(stored, CurrentKeyItem(provider), "");
    var endpoint := OrElse(stored, EndpointItem, FormDefaultEndpoint(provider));
    var model := OrElse(stored, ModelItem, FormDefaultModel(provider));
    DefaultsAreClean();
    (stored, FixUp(Form(provider, "", endpoint, model, !IsBlank(key))))
  }

  /** Choosing another provider: fix-ups for it, an empty key input, and
      the stored-key flag read for the new provider. */
  function SwitchProvider(f: Form, items: Store, provider: string): (g: Form)
    ensures g == FixUp(f.(provider := provider, keyInput := "", hasStoredKey := g.hasStoredKey))
    ensures g.hasStoredKey <==> HasValidStoredKey(items, CurrentKeyItem(provider))
  {
    var h := FixUp(f.(provider := provider));
    h.(keyInput := "", hasStoredKey := HasValidStoredKey(items, CurrentKeyItem(provider)))
  }

  /** Choosing the same provider again changes nothing more, and the key
      input is empty and the fields clean for that provider either way. */
  lemma SwitchProviderIdempotent(f: Form, items: Store, provider: string)
    ensures var g := SwitchProvider(f, items, provider);
            && SwitchProvider(g, items, provider) == g
            && g.provider == provider && g.keyInput == "" && FixUp(g) == g
  {
    var g := SwitchProvider(f, items, provider);
    FixUpIdempotent(f.(provider := provider));
  }

  /** `handleReplaceKey`: forget the selected provider's stored key, and
      nothing else. */
  function ClearKey(f: Form, items: Store): (r: (Form, Store))
    ensures r.0 == f.(keyInput := "", hasStoredKey := false)
    ensures CurrentKeyItem(f.provider) !in r.1
    ensures forall k | k != CurrentKeyItem(f.provider) :: (k in r.1 <==> k in items)
    ensures forall k | k in r.1 :: r.1[k] == items[k]
  {
    (f.(keyInput := "", hasStoredKey := false), items - {CurrentKeyItem(f.provider)})
  }

  /** After clearing, the page has no key for the selected provider until a
      new one is typed, and the other provider's key is still there. */
  lemma ClearKeyForgets(f: Form, items: Store)
    ensures var (g, s) := ClearKey(f, items);
            && EffectiveKey(g, s) == "" && !HasValidStoredKey(s, CurrentKeyItem(g.provider))
            && forall k | k != CurrentKeyItem(f.provider) && k in items :: k in s && s[k] == items[k]
  {
    var (g, s) := ClearKey(f, items);
    assert IsBlank(g.keyInput);
  }

  /** `getEffectiveApiKey`: the typed key, trimmed, if any; else the stored
      key for the selected provider, trimmed, if not blank; else empty. */
  function EffectiveKey(f: Form, items: Store): (key: string)
    ensures key == "" || IsTrimmed(key)
    ensures !IsBlank(f.keyInput) ==> key == Trim(f.keyInput)
    ensures IsBlank(f.keyInput) && HasValidStoredKey(items, CurrentKeyItem(f.provider)) ==>
              key == Trim(items[CurrentKeyItem(f.provider)])
    ensures key == "" <==> IsBlank(f.keyInput) && !HasValidStoredKey(items, CurrentKeyItem(f.provider))
  {
    var typed := Trim(f.keyInput);
    if typed != "" then typed
    else
      var k := CurrentKeyItem(f.provider);
      if k in items && Trim(items[k]) != "" then Trim(items[k]) else ""
  }

  const MissingKey := "Please enter an API key"
  const MissingEndpoint := "Please enter an API endpoint"
  const MissingModel := "Please enter a model name"

  /** The form's first problem, in the order the page checks: key, then an
      OpenAI endpoint, then the model. `suffix` is `""` for Save and
      `" first"` for the connection test. */
  function Validate(f: Form, items: Store, suffix: string): (r: Option<string>)
    ensures r.None? <==>
              && EffectiveKey(f, items) != ""
              && !(f.provider == "openai" && Trim(f.endpoint) == "")
              && Trim(f.model) != ""
    ensures EffectiveKey(f, items) == "" ==> r == Some(MissingKey + suffix)
    ensures EffectiveKey(f, items) != "" && f.provider == "openai" && Trim(f.endpoint) == "" ==>
              r == Some(MissingEndpoint + suffix)
    ensures EffectiveKey(f, items) != "" && !(f.provider == "openai" && Trim(f.endpoint) == "") && Trim(f.model) == "" ==>
              r == Some(MissingModel + suffix)
  {
    if EffectiveKey(f, items) == "" then Some(MissingKey + suffix)
    else if f.provider == "openai" && Trim(f.endpoint) == "" then Some(MissingEndpoint + suffix)
    else if Trim(f.model) == "" then Some(MissingModel + suffix)
    else None
  }

  /** The items Save writes. */
  predicate Managed(k: string) {
    k == ProviderItem || k == EndpointItem || k == ModelItem || k == OpenAIKeyItem || k == GeminiKeyItem
  }

  /** `s` holds the form as saved with `key`: provider, trimmed endpoint and
      model, the key under the selected provider only, the other provider's
      key as it was stored (or empty), every other item untouched. */
  predicate StoresForm(f: Form, key: string, items: Store, s: Store) {
    && ProviderItem in s && s[ProviderItem] == f.provider
    && EndpointItem in s && s[EndpointItem] == Trim(f.endpoint)
    && ModelItem in s && s[ModelItem] == Trim(f.model)
    && OpenAIKeyItem in s && s[OpenAIKeyItem] == (if f.provider == "openai" then key else OrElse(items, OpenAIKeyItem, ""))
    && GeminiKeyItem in s && s[GeminiKeyItem] == (if f.provider == "gemini" then key else OrElse(items, GeminiKeyItem, ""))
    && (forall k | k in items && !Managed(k) :: k in s && s[k] == items[k])
    && (forall k | k in s :: k in items || Managed(k))
  }

  /** The five item names are distinct. */
  lemma ItemsDistinct()
    ensures ProviderItem != EndpointItem && ProviderItem != ModelItem
    ensures ProviderItem != OpenAIKeyItem && ProviderItem != GeminiKeyItem
    ensures EndpointItem != ModelItem && EndpointItem != OpenAIKeyItem && EndpointItem != GeminiKeyItem
    ensures ModelItem != OpenAIKeyItem && ModelItem != GeminiKeyItem
    ensures OpenAIKeyItem != GeminiKeyItem
  {
    assert OpenAIKeyItem[6] != GeminiKeyItem[6];
  }

  /** The storage write of `handleSave`. */
  function Merge(f: Form, key: string, items: Store): (s: Store)
    ensures StoresForm(f, key, items, s)
  {
    ItemsDistinct();
    var openAIKey := if f.provider == "openai" then key else OrElse(items, OpenAIKeyItem, "");
    var geminiKey := if f.provider == "gemini" then key else OrElse(items, GeminiKeyItem, "");
    var s := items[ProviderItem := f.provider][EndpointItem := Trim(f.endpoint)][ModelItem := Trim(f.model)];
    var t := s[OpenAIKeyItem := openAIKey][GeminiKeyItem := geminiKey];
    assert forall k | k in t && !Managed(k) :: k in items && t[k] == s[k] == items[k];
    t
  }

  /** `handleSave`: on a validation error nothing is written and the first
      problem is reported; otherwise the form is stored with the effective
      key. */
  function Save(f: Form, items: Store): (r: Result<Store>)
    ensures r.Err? <==> Validate(f, items, "").Some?
    ensures r.Err? ==> r.message == Validate(f, items, "").value
    ensures r.Ok? ==> StoresForm(f, EffectiveKey(f, items), items, r.value)
  {
    match Validate(f, items, "")
    case Some(e) => Err(e)
    case None => Ok(Merge(f, EffectiveKey(f, items), items))
  }

  /** The form after `handleSave`: a successful write clears the key input
      and marks a key as stored; a refused save leaves the form alone. */
  function SaveForm(f: Form, items: Store): (r: (Form, Result<Store>))
    ensures r.1 == Save(f, items)
    ensures r.1.Err? ==> r.0 == f
    ensures r.1.Ok? ==> r.0 == f.(keyInput := "", hasStoredKey := true)
  {
    var saved := Save(f, items);
    (if saved.Ok? then f.(keyInput := "", hasStoredKey := true) else f, saved)
  }

  /** Clearing the key input after a save loses nothing: the saved form
      with the saved items yields the same key as before, and the "stored
      key" mark is true of what was stored. */
  lemma SavedKeyStaysEffective(f: Form, items: Store)
    ensures (f.provider == "openai" || f.provider == "gemini") && Save(f, items).Ok? ==>
            var (g, saved) := SaveForm(f, items);
            && EffectiveKey(g, saved.value) == EffectiveKey(f, items)
            && (g.hasStoredKey <==> HasValidStoredKey(saved.value, CurrentKeyItem(g.provider)))
  {
    if (f.provider == "openai" || f.provider == "gemini") && Save(f, items).Ok? {
      var (g, saved) := SaveForm(f, items);
      var key := EffectiveKey(f, items);
      assert key != "" && IsTrimmed(key);
      assert saved.value[CurrentKeyItem(f.provider)] == key;
      TrimOfTrimmed(key);
      assert !IsBlank(key) by { assert !IsSpace(key[0]); }
    }
  }

  /** What Save stores is what the background worker then runs with: the
      provider selected, the key entered (or kept), the endpoint entered (or
      Gemini's default when it was left empty) and the model entered. */
  lemma SaveThenResolve(f: Form, items: Store)
    requires f.provider == "openai" || f.provider == "gemini"
    ensures Save(f, items).Ok? ==>
            var c := Resolve(Save(f, items).value);
            && c.provider == ProviderOf(f.provider)
            && c.apiKey == EffectiveKey(f, items) && c.apiKey != ""
            && c.endpoint == (if Trim(f.endpoint) != "" then Trim(f.endpoint) else DefaultEndpoint(c.provider))
            && c.model == Trim(f.model)
  {
    if Save(f, items).Ok? {
      var s := Save(f, items).value;
      assert KeyItem(ProviderOf(f.provider)) in s;
    }
  }

  /** After a save, reloading the page selects the same provider and shows
      that a key is stored. */
  lemma SaveThenLoad(f: Form, items: Store)
    requires f.provider == "openai" || f.provider == "gemini"
    ensures Save(f, items).Ok? ==>
            var g := LoadForm(Save(f, items).value).1;
            g.provider == f.provider && g.hasStoredKey && g.keyInput == ""
  {
    if Save(f, items).Ok? {
      var s := Save(f, items).value;
      var key := EffectiveKey(f, items);
      assert key != "" && IsTrimmed(key);
      assert !IsBlank(key) by { assert !IsSpace(key[0]); }
      if NeedsMigration(s) {
        assert Migrate(s)[CurrentKeyItem(f.provider)] == s[CurrentKeyItem(f.provider)];
      }
    }
  }

  /** The request the connection test sends: the same Gemini URL a rewrite
      uses, or a one-message chat request to the endpoint as entered. */
  function TestRequest(f: Form, items: Store): (r: Result<Request>)
    ensures r.Err? <==> Validate(f, items, " first").Some?
    ensures r.Ok? && f.provider == "gemini" ==>
              r.value == GenerateRequest(GeminiUrl(Trim(f.endpoint), Trim(f.model), EffectiveKey(f, items)), "Hello")
    ensures r.Err? ==> r.message == Validate(f, items, " first").value
    ensures r.Ok? && f.provider != "gemini" ==>
              && r.value.ChatRequest? && r.value.url == Trim(f.endpoint) && r.value.bearer == EffectiveKey(f, items)
              && r.value.model == Trim(f.model) && r.value.messages == [ChatMessage(User, "Hello")]
  {
    match Validate(f, items, " first")
    case Some(e) => Err(e)
    case None =>
      var key := EffectiveKey(f, items);
      if f.provider == "gemini" then
        Ok(GenerateRequest(GeminiUrl(Trim(f.endpoint), Trim(f.model), key), "Hello"))
      else
        Ok(ChatRequest(Trim(f.endpoint), key, Trim(f.model), [ChatMessage(User, "Hello")]))
  }

  /** Validation does not depend on which handler runs it, only the wording
      does: the test refuses exactly the forms Save refuses. */
  lemma TestRefusesWhatSaveRefuses(f: Form, items: Store)
    ensures TestRequest(f, items).Err? <==> Save(f, items).Err?
  {
  }

  /** For a Gemini form with an endpoint, the connection test posts to the
      very URL a rewrite with the saved settings posts to. */
  lemma TestUrlMatchesRewrite(f: Form, items: Store)
    requires f.provider == "gemini"
    ensures Trim(f.endpoint) != "" && Save(f, items).Ok? ==>
            var c := Resolve(Save(f, items).value);
            TestRequest(f, items) == Ok(GenerateRequest(GeminiUrl(c.endpoint, c.model, c.apiKey), "Hello"))
  {
    SaveThenResolve(f, items);
  }

  /** A Gemini form whose endpoint holds only spaces: the fix-ups keep it
      (they test for "" before trimming), validation does not ask for a
      Gemini endpoint, and so the connection test posts to a URL on the
      bare `/v1beta` path, while a rewrite after saving the same form uses
      the default endpoint. */
  lemma BlankEndpointTestDiverges()
    ensures var f := FixUp(Form("gemini", "k", "  ", "m", false));
            && f.endpoint == "  "
            && Save(f, map[]).Ok?
            && Resolve(Save(f, map[]).value).endpoint == GeminiDefaultEndpoint
            && TestRequest(f, map[]) == Ok(GenerateRequest(GeminiUrl("", "m", "k"), "Hello"))
            && StartsWith(GeminiUrl("", "m", "k"), V1Beta + Models + "/")
            && GeminiUrl("", "m", "k") != GeminiUrl(GeminiDefaultEndpoint, "m", "k")
  {
    var f := Form("gemini", "k", "  ", "m", false);
    BlankFormKept(f);
    BlankFormSaves(f);
    BlankUrlsDiffer();
  }

  /** How such a form arises: spaces typed into the endpoint field while
      OpenAI is selected are kept when the user switches to Gemini (the
      fix-up tests for "" before trimming), and the field is then hidden;
      typing the key gives the form the test above starts from. */
  lemma BlankEndpointReachable()
    ensures var g := SwitchProvider(Form("openai", "", "  ", "m", false), map[], "gemini");
            g.(keyInput := "k") == Form("gemini", "k", "  ", "m", false)
  {
    BlankFormKept(Form("gemini", "", "  ", "m", false));
  }

  /** The fix-ups leave a blank Gemini endpoint as it is. */
  lemma BlankFormKept(f: Form)
    requires f.provider == "gemini" && f.endpoint == "  " && f.model == "m"
    ensures FixUp(f) == f
  {
    assert !Contains("  ", OpenAIHostMark) by { NoCharExcludes("  ", OpenAIHostMark, 0); }
    assert !StartsWith("m", OpenAIModelPrefix);
  }

  /** Save accepts the blank Gemini endpoint and the background then falls
      back to the default, while the test trims it to "". */
  lemma BlankFormSaves(f: Form)
    requires f == Form("gemini", "k", "  ", "m", false)
    ensures Save(f, map[]).Ok?
    ensures Resolve(Save(f, map[]).value).endpoint == GeminiDefaultEndpoint
    ensures TestRequest(f, map[]) == Ok(GenerateRequest(GeminiUrl("", "m", "k"), "Hello"))
  {
    assert Trim("  ") == "" by { assert IsBlank("  "); }
    TrimOfTrimmed("k");
    TrimOfTrimmed("m");
    assert EffectiveKey(f, map[]) == "k";
    assert Validate(f, map[], "").None? && Validate(f, map[], " first").None?;
    SaveThenResolve(f, map[]);
  }

  /** The URL built on "" starts with the bare version path, unlike the one
      built on the default endpoint. */
  lemma BlankUrlsDiffer()
    ensures StartsWith(GeminiUrl("", "m", "k"), V1Beta + Models + "/")
    ensures GeminiUrl("", "m", "k") != GeminiUrl(GeminiDefaultEndpoint, "m", "k")
  {
    assert Normalize("") == V1Beta;
    DefaultEndpointNormal();
    DefaultEndpointShape(GeminiDefaultEndpoint);
    var rewritten := GeminiUrl(GeminiDefaultEndpoint, "m", "k");
    assert rewritten[0] == (GeminiDefaultEndpoint + Models + "/")[0] == 'h';
  }

  /** `handleTest` as evidently intended: a Gemini endpoint left blank is
      tested at the default endpoint, the one a rewrite then uses. */
  function TestRequestFixed(f: Form, items: Store): (r: Result<Request>)
    ensures r.Err? <==> TestRequest(f, items).Err?
    ensures r.Err? ==> r == TestRequest(f, items)
    ensures !(f.provider == "gemini" && Trim(f.endpoint) == "") ==> r == TestRequest(f, items)
    ensures r.Ok? && f.provider == "gemini" && Trim(f.endpoint) == "" ==>
              r.value == GenerateRequest(GeminiUrl(GeminiDefaultEndpoint, Trim(f.model), EffectiveKey(f, items)), "Hello")
  {
    if f.provider == "gemini" && Trim(f.endpoint) == "" then
      match TestRequest(f, items)
      case Err(e) => Err(e)
      case Ok(_) => Ok(GenerateRequest(GeminiUrl(GeminiDefaultEndpoint, Trim(f.model), EffectiveKey(f, items)), "Hello"))
    else TestRequest(f, items)
  }

  /** With the correction, the connection test posts to the very URL a
      rewrite with the saved settings posts to, for every Gemini form Save
      accepts, blank endpoint included. */
  lemma TestUrlMatchesRewriteFixed(f: Form, items: Store)
    requires f.provider == "gemini"
    ensures Save(f, items).Ok? ==>
            var c := Resolve(Save(f, items).value);
            TestRequestFixed(f, items) == Ok(GenerateRequest(GeminiUrl(c.endpoint, c.model, c.apiKey), "Hello"))
  {
    SaveThenResolve(f, items);
    if Trim(f.endpoint) != "" {
      TestUrlMatchesRewrite(f, items);
    }
  }
}

=== FILE: page.dfy ===
/** The content script (content.js): finding the editable field around the
    selection, splicing rewritten text into it, the single result/error
    overlay, the message dispatcher and the guard against a second
    initialisation. The page is a value: the selection's text, its range
    count, and the chain of elements from the selection's container up. */
module ContentScript {
  import opened Wrappers
  import opened Strings

  /** An element as the script sees it. `value`, `selStart` and `selEnd`
      are a text field's value and selection; for a content-editable element
      they stand for its text and the window selection's offsets in it. */
  datatype Node = Node(tag: string, inputType: string, contentEditable: bool,
                       value: string, selStart: nat, selEnd: nat)

  /** The page: the selection's `toString()`, its `rangeCount`, and the
      element holding the selection followed by its ancestors, nearest
      first (empty when that element is null). */
  datatype Document = Document(text: string, rangeCount: nat, chain: seq<Node>)

  /** The element and its next five ancestors are examined, no further. */
  const Window := 6

  /** A text area, a text input, or a content-editable element. */
  predicate Qualifies(n: Node) {
    n.tag == "TEXTAREA" || (n.tag == "INPUT" && n.inputType == "text") || n.contentEditable
  }

  predicate InWindow(chain: seq<Node>, i: int) {
    0 <= i < |chain| && i < Window
  }

  /** `isElementEditable`: some node of the window qualifies. A null element
      (an empty chain) is not editable. */
  function IsElementEditable(chain: seq<Node>): (b: bool)
    ensures b <==> exists i | InWindow(chain, i) :: Qualifies(chain[i])
  {
    EditableFrom(chain, 0)
  }

  function EditableFrom(chain: seq<Node>, i: nat): (b: bool)
    decreases Window - i
    ensures b <==> exists j | i <= j && InWindow(chain, j) :: Qualifies(chain[j])
  {
    if i >= Window || i >= |chain| then false
    else Qualifies(chain[i]) || EditableFrom(chain, i + 1)
  }

  /** The nearest qualifying node of the window at or above `i`. */
  function NearestFrom(chain: seq<Node>, i: nat): (r: Option<nat>)
    decreases Window - i
    ensures r.Some? ==> i <= r.value && InWindow(chain, r.value) && Qualifies(chain[r.value])
    ensures r.Some? ==> forall j | i <= j < r.value :: !Qualifies(chain[j])
    ensures r.None? ==> forall j | i <= j && InWindow(chain, j) :: !Qualifies(chain[j])
  {
    if i >= Window || i >= |chain| then None
    else if Qualifies(chain[i]) then Some(i)
    else NearestFrom(chain, i + 1)
  }

  /** What `findEditableElement` does: no range gives null; a null element
      makes the source read a property of null and throw; otherwise the
      nearest qualifying node of the window, or null. */
  datatype Search = Found(index: nat) | Missing | Crash

  function FindEditableElement(doc: Document): (s: Search)
    ensures doc.rangeCount == 0 ==> s == Missing
    ensures s == Crash <==> doc.rangeCount > 0 && doc.chain == []
    ensures s.Found? ==> InWindow(doc.chain, s.index) && Qualifies(doc.chain[s.index])
                         && forall j | 0 <= j < s.index :: !Qualifies(doc.chain[j])
  {
    if doc.rangeCount == 0 then Missing
    else if doc.chain == [] then Crash
    else match NearestFrom(doc.chain, 0)
      case Some(i) => Found(i)
      case None => Missing
  }

  /** Both searches look at the same window, so the field found is there
      exactly when the selection counts as editable. */
  lemma FindAgreesWithEditable(doc: Document)
    requires doc.rangeCount > 0 && doc.chain != []
    ensures FindEditableElement(doc).Found? <==> IsElementEditable(doc.chain)
  {
    var r := NearestFrom(doc.chain, 0);
    if r.None? {
      assert !EditableFrom(doc.chain, 0);
    }
  }

  /** What `getSelectedText` reports. */
  datatype SelectionInfo = SelectionInfo(text: string, isEditable: bool)

  function GetSelectedText(doc: Document): (info: SelectionInfo)
    ensures IsBlank(doc.text) ==> info == SelectionInfo("", false)
    ensures !IsBlank(doc.text) ==>
              && info.text == Trim(doc.text) && info.text != ""
              && (info.isEditable <==> exists i | InWindow(doc.chain, i) :: Qualifies(doc.chain[i]))
  {
    var text := Trim(doc.text);
    if text == "" then SelectionInfo("", false)
    else SelectionInfo(text, IsElementEditable(doc.chain))
  }

  /** `text.substring(0, start) + newText + text.substring(end)`. */
  function Splice(text: string, start: nat, end: nat, newText: string): string {
    Substring(text, 0, start) + newText + Substring(text, end, |text|)
  }

  /** On a well-formed selection the splice keeps what lies before `start`
      and from `end` on, puts `newText` in between, and changes the length
      by the difference. */
  lemma SpliceShape(text: string, start: nat, end: nat, newText: string)
    requires start <= end <= |text|
    ensures var r := Splice(text, start, end, newText);
            && r == text[..start] + newText + text[end..]
            && |r| == |text| - (end - start) + |newText|
            && r[..start] == text[..start]
            && r[start..start + |newText|] == newText
            && r[start + |newText|..] == text[end..]
  {
    var r := Splice(text, start, end, newText);
    assert Substring(text, 0, start) == text[..start];
    assert Substring(text, end, |text|) == text[end..];
    assert r == text[..start] + newText + text[end..];
    assert r[..start] == text[..start];
    assert r[start..start + |newText|] == newText;
    assert r[start + |newText|..] == text[end..];
  }

  /** Splicing the replaced text back over the inserted text undoes a
      replacement. */
  lemma SpliceUndo(text: string, start: nat, end: nat, newText: string)
    requires start <= end <= |text|
    ensures Splice(Splice(text, start, end, newText), start, start + |newText|, text[start..end]) == text
  {
    var r := Splice(text, start, end, newText);
    SpliceShape(text, start, end, newText);
    SpliceShape(r, start, start + |newText|, text[start..end]);
    assert r[..start] + text[start..end] + r[start + |newText|..] == text[..start] + text[start..end] + text[end..];
    assert text[..start] + text[start..end] + text[end..] == text;
  }

  /** The replacement inside one element: a text area or any input gets the
      splice and the caret after the new text; a content-editable element
      gets the same on its text; anything else is left alone. */
  function ReplaceIn(n: Node, newText: string): (m: Node)
    ensures m.tag == n.tag && m.inputType == n.inputType && m.contentEditable == n.contentEditable
    ensures (n.tag == "TEXTAREA" || n.tag == "INPUT" || n.contentEditable) ==>
              && m.value == Splice(n.value, n.selStart, n.selEnd, newText)
              && m.selStart == m.selEnd == n.selStart + |newText|
    ensures !(n.tag == "TEXTAREA" || n.tag == "INPUT" || n.contentEditable) ==> m == n
  {
    if n.tag == "TEXTAREA" || n.tag == "INPUT" || n.contentEditable then
      var caret := n.selStart + |newText|;
      n.(value := Splice(n.value, n.selStart, n.selEnd, newText), selStart := caret, selEnd := caret)
    else n
  }

  datatype Overlay =
    | ResultOverlay(originalText: string, result: string, replaceEnabled: bool)
    | ErrorOverlay(message: string)

  /** The script's variables and the overlays attached to the page. */
  datatype Content = Content(
    overlay: Option<Overlay>,
    attached: seq<Overlay>,
    selectedText: string,
    isEditable: bool,
    editable: Option<nat>,
    doc: Document)

  /** The page holds exactly the overlay the script refers to, if any. */
  predicate Valid(c: Content) {
    c.attached == (if c.overlay.Some? then [c.overlay.value] else [])
  }

  /** `element.remove()`: the first attached copy goes. */
  function Detach(attached: seq<Overlay>, o: Overlay): (r: seq<Overlay>)
    ensures |r| <= |attached|
    ensures o !in attached ==> r == attached
    ensures o in attached ==> |r| == |attached| - 1
  {
    if attached == [] then []
    else if attached[0] == o then attached[1..]
    else [attached[0]] + Detach(attached[1..], o)
  }

  /** Removing any current overlay, then attaching `o` as the current one. */
  function Attach(c: Content, o: Overlay): (d: Content)
    requires Valid(c)
    ensures Valid(d) && d.overlay == Some(o)
  {
    var rest := if c.overlay.Some? then Detach(c.attached, c.overlay.value) else c.attached;
    c.(overlay := Some(o), attached := rest + [o])
  }

  /** `handleClose`. */
  function Close(c: Content): (d: Content)
    requires Valid(c)
    ensures Valid(d) && d.overlay.None?
    ensures d.doc == c.doc && d.editable == c.editable && d.isEditable == c.isEditable
  {
    if c.overlay.Some? then c.(overlay := None, attached := Detach(c.attached, c.overlay.value))
    else c
  }

  /** The outcome of a handler that may throw part-way. */
  datatype Step = Step(state: Content, completed: bool)

  /** `showResultOverlay`: the text is recorded first, then the field is
      looked up (a throw there leaves the old overlay in place), recorded,
      and a new overlay replaces any old one. */
  function ShowResultOverlay(c: Content, originalText: string, result: string): (s: Step)
    requires Valid(c)
    ensures Valid(s.state) && s.state.doc == c.doc && s.state.selectedText == originalText
    ensures s.completed <==> FindEditableElement(c.doc) != Crash
    // A throw in the search leaves everything but the recorded text as it was.
    ensures !s.completed ==> s.state == c.(selectedText := originalText)
    ensures s.completed ==>
              && s.state.isEditable == FindEditableElement(c.doc).Found?
              && s.state.editable == (if FindEditableElement(c.doc).Found? then Some(FindEditableElement(c.doc).index) else None)
              && s.state.overlay == Some(ResultOverlay(originalText, result, s.state.isEditable))
  {
    var c1 := c.(selectedText := originalText);
    match FindEditableElement(c.doc)
    case Crash => Step(c1, false)
    case Found(i) =>
      Step(Attach(c1.(editable := Some(i), isEditable := true), ResultOverlay(originalText, result, true)), true)
    case Missing =>
      Step(Attach(c1.(editable := None, isEditable := false), ResultOverlay(originalText, result, false)), true)
  }

  /** `showErrorOverlay`. */
  function ShowErrorOverlay(c: Content, message: string): (d: Content)
    requires Valid(c)
    ensures Valid(d) && d.overlay == Some(ErrorOverlay(message))
    ensures d.doc == c.doc && d.editable == c.editable && d.isEditable == c.isEditable
  {
    Attach(c, ErrorOverlay(message))
  }

  /** `replaceSelectedText`: nothing without a recorded field or without a
      range; otherwise the recorded field gets the replacement. */
  function ReplaceSelectedText(c: Content, newText: string): (d: Content)
    ensures d == c.(doc := d.doc)
    ensures c.editable.None? || c.doc.rangeCount == 0 ==> d == c
    ensures |d.doc.chain| == |c.doc.chain| && d.doc.text == c.doc.text && d.doc.rangeCount == c.doc.rangeCount
    ensures forall j | 0 <= j < |c.doc.chain| && (c.editable.None? || j != c.editable.value) ::
              d.doc.chain[j] == c.doc.chain[j]
    ensures c.editable.Some? && c.doc.rangeCount > 0 && c.editable.value < |c.doc.chain| ==>
              d.doc.chain[c.editable.value] == ReplaceIn(c.doc.chain[c.editable.value], newText)
  {
    if c.editable.None? || c.doc.rangeCount == 0 || c.editable.value >= |c.doc.chain| then c
    else
      var i := c.editable.value;
      c.(doc := c.doc.(chain := c.doc.chain[i := ReplaceIn(c.doc.chain[i], newText)]))
  }

  datatype Message =
    | ShowResultMessage(originalText: string, result: string)
    | ShowErrorMessage(error: string)
    | GetSelection
    | ReplaceText(text: string)
    | Unknown

  datatype Reply =
    | Ack(success: bool, error: string)
    | SelectionReply(info: SelectionInfo)
    | NoReply

  const NoEditableMessage := "No editable element found"

  /** The `onMessage` listener. A `replaceText` request fails only when no
      field is found now, and succeeds whenever one is, even when the field
      recorded by the last result overlay is missing and nothing changes. */
  function HandleMessage(c: Content, msg: Message): (r: (Content, Reply))
    requires Valid(c)
    ensures Valid(r.0)
    ensures msg.ReplaceText? ==>
              && (r.1 == Ack(false, NoEditableMessage) <==> FindEditableElement(c.doc) == Missing)
              && (r.1 == Ack(true, "") <==> FindEditableElement(c.doc).Found?)
              && (r.1 == NoReply <==> FindEditableElement(c.doc) == Crash)
              && (FindEditableElement(c.doc).Found? ==> r.0 == ReplaceSelectedText(c, msg.text))
              && (FindEditableElement(c.doc).Found? && c.editable.None? ==> r.0 == c)
              && (!FindEditableElement(c.doc).Found? ==> r.0 == c)
    ensures msg.ShowResultMessage? ==>
              var s := ShowResultOverlay(c, msg.originalText, msg.result);
              && r.0 == s.state
              && (r.1 == Ack(true, "") <==> s.completed)
              && (r.1 == NoReply <==> !s.completed)
    ensures msg.ShowErrorMessage? ==> r.1 == Ack(true, "") && r.0.overlay == Some(ErrorOverlay(msg.error))
    ensures msg.GetSelection? ==> r == (c, SelectionReply(GetSelectedText(c.doc)))
    ensures !msg.ReplaceText? ==> r.0.doc == c.doc
  {
    match msg
    case ShowResultMessage(o, res) =>
      var s := ShowResultOverlay(c, o, res);
      (s.state, if s.completed then Ack(true, "") else NoReply)
    case ShowErrorMessage(e) => (ShowErrorOverlay(c, e), Ack(true, ""))
    case GetSelection => (c, SelectionReply(GetSelectedText(c.doc)))
    case ReplaceText(t) =>
      (match FindEditableElement(c.doc)
       case Found(_) =>
         var d := ReplaceSelectedText(c, t);
         assert d.overlay == c.overlay && d.attached == c.attached;
         (d, Ack(true, ""))
       case Missing => (c, Ack(false, NoEditableMessage))
       case Crash => (c, NoReply))
    case Unknown => (c, NoReply)
  }

  /** `replaceText` as the listener evidently means it: the field found
      for the current selection is the one that receives the text. Every
      other message is handled as before. */
  function HandleMessageFixed(c: Content, msg: Message): (r: (Content, Reply))
    requires Valid(c)
    ensures Valid(r.0)
    ensures msg.ReplaceText? && FindEditableElement(c.doc).Found? ==>
              var i := FindEditableElement(c.doc).index;
              && r.1 == Ack(true, "") && r.0.editable == Some(i)
              && |r.0.doc.chain| == |c.doc.chain|
              && r.0.doc.chain[i] == ReplaceIn(c.doc.chain[i], msg.text)
    ensures !(msg.ReplaceText? && FindEditableElement(c.doc).Found?) ==> r == HandleMessage(c, msg)
  {
    match msg
    case ReplaceText(t) =>
      (match FindEditableElement(c.doc)
       case Found(i) =>
         var d := ReplaceSelectedText(c.(editable := Some(i)), t);
         assert d.overlay == c.overlay && d.attached == c.attached;
         (d, Ack(true, ""))
       case _ => HandleMessage(c, msg))
    case _ => HandleMessage(c, msg)
  }

  /** A page where no result overlay was shown yet, with the whole of a
      text area's "hello" selected: `replaceText` with "hi" reports success
      and changes nothing, while the intended handler writes "hi". */
  lemma ReplaceTextIgnoredWithoutOverlay()
    ensures var n := Node("TEXTAREA", "", false, "hello", 0, 5);
            var c := Content(None, [], "", false, None, Document("hello", 1, [n]));
            && FindEditableElement(c.doc) == Found(0)
            && HandleMessage(c, ReplaceText("hi")) == (c, Ack(true, ""))
            && HandleMessageFixed(c, ReplaceText("hi")).0.doc.chain[0].value == "hi"
  {
    var n := Node("TEXTAREA", "", false, "hello", 0, 5);
    SpliceShape("hello", 0, 5, "hi");
    assert Splice("hello", 0, 5, "hi") == "hi";
  }

  /** The overlay's Replace button: nothing unless the selection was
      editable; otherwise the result replaces the selection and the
      overlay closes. */
  function ClickReplace(c: Content): (d: Content)
    requires Valid(c)
    ensures Valid(d)
    ensures c.overlay.Some? && c.overlay.value.ResultOverlay? && c.isEditable ==>
              d.overlay.None? && d.doc == ReplaceSelectedText(c, c.overlay.value.result).doc
    ensures !(c.overlay.Some? && c.overlay.value.ResultOverlay? && c.isEditable) ==> d == c
  {
    match c.overlay
    case Some(ResultOverlay(_, result, _)) =>
      if !c.isEditable then c else Close(ReplaceSelectedText(c, result))
    case _ => c
  }

  /** What can happen to the script: a message, or a click on the overlay's
      close control (the close button, the backdrop or Escape) or on its
      Replace button. */
  datatype Event = Receive(msg: Message) | CloseClicked | ReplaceClicked

  /** Which `onMessage` listener runs: the one in the source, or the one
      with the corrected `replaceText`. */
  datatype Listener = AsWritten | Corrected

  function Handle(c: Content, e: Event, l: Listener): (d: Content)
    requires Valid(c)
    ensures Valid(d)
  {
    match e
    case Receive(msg) => (if l == AsWritten then HandleMessage(c, msg) else HandleMessageFixed(c, msg)).0
    case CloseClicked => Close(c)
    case ReplaceClicked => ClickReplace(c)
  }

  function Replay(c: Content, events: seq<Event>, l: Listener): Content
    requires Valid(c)
    decreases |events|
  {
    if events == [] then c else Replay(Handle(c, events[0], l), events[1..], l)
  }

  /** Whatever sequence of messages and clicks arrives, at most one overlay
      is ever attached, and it is the one the script refers to; this holds
      for the listener as written and for the corrected one. */
  lemma {:induction false} AtMostOneOverlay(c: Content, events: seq<Event>, l: Listener)
    requires Valid(c)
    ensures var d := Replay(c, events, l); Valid(d) && |d.attached| <= 1
    decreases |events|
  {
    if events != [] {
      AtMostOneOverlay(Handle(c, events[0], l), events[1..], l);
    }
  }

  /** The page-global flag and the listeners the script registered. */
  datatype PageWindow = PageWindow(initialized: bool, listeners: nat)

  /** Running the injected script: it sets the flag and registers its
      listener only the first time. */
  function Inject(w: PageWindow): (v: PageWindow)
    ensures v.initialized
    ensures w.initialized ==> v == w
  {
    if w.initialized then w else PageWindow(true, w.listeners + 1)
  }

  /** Injecting again changes nothing. */
  lemma InjectIdempotent(w: PageWindow)
    ensures Inject(Inject(w)) == Inject(w)
  {
  }

  /** From a fresh page, any number of injections registers one listener. */
  lemma {:induction false} OneListener(n: nat)
    ensures n > 0 ==> Injected(n) == PageWindow(true, 1)
    ensures n == 0 ==> Injected(n) == PageWindow(false, 0)
  {
    if n > 1 {
      OneListener(n - 1);
    }
  }

  function Injected(n: nat): PageWindow {
    if n == 0 then PageWindow(false, 0) else Inject(Injected(n - 1))
  }
}

=== FILE: popup.dfy ===
/** The toolbar popup (popup.js) and the background worker's answer to its
    `rewrite` message (background.js `runtime.onMessage`): input
    validation, the character counter, showing the answer, swapping input
    and output, filling the input from the page's selection, and the
    replace-in-page attempts. */
module Popup {
  import opened Wrappers
  import opened Strings
  import opened Settings
  import opened Prompts
  import opened Adapter
  import opened Delivery
  import ContentScript

  /** What the popup shows: the two text areas, the chosen mode, the error
      line (`None` when hidden) and whether the output and replace button
      are visible. */
  datatype View = View(input: string, output: string, mode: Mode, error: Option<string>,
                       outputShown: bool, replaceShown: bool)

  const EmptyInputMessage := "Please enter or select text to rewrite."

  /** The `{action: 'rewrite', text, mode}` message. */
  datatype RewriteMessage = RewriteMessage(text: string, mode: Mode)

  /** The first half of `handleRewrite`: a blank or over-long input is
      refused with a message and nothing is sent; otherwise the error line
      is hidden and the trimmed text is sent. */
  function Submit(v: View): (r: (View, Option<RewriteMessage>))
    ensures r.1.None? <==> IsBlank(v.input) || |Trim(v.input)| > MaxLength
    ensures IsBlank(v.input) ==> r.0 == v.(error := Some(EmptyInputMessage))
    ensures !IsBlank(v.input) && |Trim(v.input)| > MaxLength ==> r.0 == v.(error := Some(TooLongMessage))
    ensures r.1.Some? ==>
              && r.0 == v.(error := None)
              && r.1.value.mode == v.mode
              && r.1.value.text != "" && IsTrimmed(r.1.value.text) && |r.1.value.text| <= MaxLength
              && r.1.value.text == Trim(v.input)
  {
    var text := Trim(v.input);
    if text == [] then (v.(error := Some(EmptyInputMessage)), None)
    else if |text| > MaxLength then (v.(error := Some(TooLongMessage)), None)
    else (v.(error := None), Some(RewriteMessage(text, v.mode)))
  }

  /** How `sendMessage` settles: the worker's `{success, result, error}`,
      or a rejection with the error's message. */
  datatype Answer = Answered(success: bool, result: string, error: string) | Rejected(message: string)

  const DisconnectedMessage := "Failed to connect to extension"

  /** The background worker's listener for `rewrite`: the rewrite's result
      or its error message. */
  function Respond(msg: RewriteMessage, items: Store, network: Request -> Reply): (a: Answer)
    ensures a.Answered?
    ensures var run := RewriteText(msg.text, msg.mode, items, network);
            && (a.success <==> run.result.Ok?)
            && (run.result.Ok? ==> a.result == run.result.value)
            && (run.result.Err? ==> a.error == run.result.message && a.error != "")
  {
    match RewriteText(msg.text, msg.mode, items, network).result
    case Ok(text) => Answered(true, text, "")
    case Err(message) => Answered(false, "", message)
  }

  /** The second half of `handleRewrite`: a successful answer fills and
      shows the output; anything else shows an error, with a fallback text
      when the answer carries none. */
  function Finish(v: View, a: Answer): (w: View)
    ensures w.input == v.input && w.mode == v.mode && w.replaceShown == v.replaceShown
    ensures a.Answered? && a.success ==> w.output == a.result && w.outputShown && w.error == v.error
    ensures !(a.Answered? && a.success) ==>
              && w.output == v.output && w.outputShown == v.outputShown
              && w.error.Some? && w.error.value != ""
    ensures a.Answered? && !a.success ==> w.error == Some(if a.error != "" then a.error else FailedFallback)
    ensures a.Rejected? ==> w.error == Some(if a.message != "" then a.message else DisconnectedMessage)
  {
    match a
    case Answered(success, result, error) =>
      if success then v.(output := result, outputShown := true)
      else v.(error := Some(MessageOr(error, FailedFallback)))
    case Rejected(message) => v.(error := Some(MessageOr(message, DisconnectedMessage)))
  }

  /** A click on Rewrite, with the worker answering. The worker never sees
      an over-long text, so its settings are always read; the popup then
      shows exactly the worker's result or the worker's error message,
      never its own fallback. */
  function Rewrite(v: View, items: Store, network: Request -> Reply): (w: View)
    ensures IsBlank(v.input) ==> w == v.(error := Some(EmptyInputMessage))
    ensures !IsBlank(v.input) && |Trim(v.input)| > MaxLength ==> w == v.(error := Some(TooLongMessage))
    ensures !IsBlank(v.input) && |Trim(v.input)| <= MaxLength ==>
              var run := RewriteText(Trim(v.input), v.mode, items, network);
              && run.settingsRead
              && (run.result.Ok? ==> w == v.(error := None, output := run.result.value, outputShown := true))
              && (run.result.Err? ==> w == v.(error := Some(run.result.message)))
  {
    var (u, sent) := Submit(v);
    match sent
    case None => u
    case Some(msg) => Finish(u, Respond(msg, items, network))
  }

  /** `handleSwap`: input and output change places. */
  function Swap(v: View): (w: View)
    ensures w.input == v.output && w.output == v.input
    ensures w.mode == v.mode && w.error == v.error && w.outputShown == v.outputShown && w.replaceShown == v.replaceShown
  {
    v.(input := v.output, output := v.input)
  }

  /** Swapping twice restores the view. */
  lemma SwapInvolution(v: View)
    ensures Swap(Swap(v)) == v
  {
  }

  /** The counter under the input: its text and whether it is drawn in
      the warning colour. */
  datatype Counter = Counter(caption: string, warning: bool)

  const CharactersSuffix := " characters"
  /** ` (max 10000)`, appended to the counter over the limit. */
  const MaxNote := " (max " + NatToString(MaxLength) + ")"

  /** `updateCharCount`: `<n> characters`, plus ` (max 10000)` and the
      warning colour when the input, untrimmed, is over the limit. */
  function CharCount(input: string): (c: Counter)
    ensures c.warning <==> |input| > MaxLength
    ensures StartsWith(c.caption, NatToString(|input|) + CharactersSuffix)
    ensures !c.warning ==> c.caption == NatToString(|input|) + CharactersSuffix
    ensures c.warning <==> EndsWith(c.caption, ")")
    ensures c.warning ==> c.caption == NatToString(|input|) + CharactersSuffix + MaxNote
  {
    var base := NatToString(|input|) + CharactersSuffix;
    assert base[|base| - 1] == 's';
    if |input| > MaxLength then
      var caption := base + MaxNote;
      assert caption[..|base|] == base;
      assert caption[|caption| - 1] == ')';
      Counter(caption, true)
    else
      assert base[..|base|] == base;
      Counter(base, false)
  }

  /** The counter states the input's length: its leading digits read back
      as that length, and they end where the caption's first space is. */
  lemma CountReadsBack(input: string)
    ensures var c := CharCount(input);
            var digits := NatToString(|input|);
            && |digits| < |c.caption| && c.caption[|digits|] == ' '
            && (forall i | 0 <= i < |digits| :: IsDigit(c.caption[i]))
            && ParseDigits(c.caption[..|digits|]) == |input|
  {
    var c := CharCount(input);
    var digits := NatToString(|input|);
    var base := digits + CharactersSuffix;
    assert c.caption[..|base|] == base;
    assert c.caption[..|digits|] == digits;
    assert c.caption[|digits|] == base[|digits|];
    forall i | 0 <= i < |digits| ensures IsDigit(c.caption[i]) {
      assert c.caption[i] == base[i] == digits[i];
    }
    NatToStringRoundTrip(|input|);
  }

  /** The counter warns on the untrimmed length while Rewrite checks the
      trimmed one: one leading space on a text of exactly the limit turns
      the counter red, and the text is still sent. */
  lemma CounterWarnsYetSends(v: View)
    requires v.input == [' '] + seq(MaxLength, _ => 'a')
    ensures CharCount(v.input).warning
    ensures Submit(v).1.Some?
  {
    var x := seq(MaxLength, _ => 'a');
    assert x[0] == 'a' && x[|x| - 1] == 'a';
    TrimOfTrimmed(x);
    TrimLeadingSpace(' ', x);
  }

  /** `loadSelectedText`: a reply with text fills the input and shows the
      replace button exactly when the text is editable; no reply, or an
      empty text, leaves the popup as it was. */
  function LoadSelection(v: View, reply: Option<ContentScript.SelectionInfo>): (w: View)
    ensures reply.None? || reply.value.text == "" ==> w == v
    ensures reply.Some? && reply.value.text != "" ==>
              w == v.(input := reply.value.text, replaceShown := reply.value.isEditable)
  {
    match reply
    case Some(info) =>
      if info.text != "" then v.(input := info.text, replaceShown := info.isEditable) else v
    case None => v
  }

  /** With the content script answering `getSelection`, the popup's input
      becomes the page's trimmed selection, and Replace is offered exactly
      when an editable field is near it. */
  lemma LoadFromPage(v: View, c: ContentScript.Content)
    requires ContentScript.Valid(c)
    requires !IsBlank(c.doc.text)
    ensures var r := ContentScript.HandleMessage(c, ContentScript.GetSelection);
            && r.1.SelectionReply?
            && var w := LoadSelection(v, Some(r.1.info));
            && w.input == Trim(c.doc.text)
            && (w.replaceShown <==> exists i | ContentScript.InWindow(c.doc.chain, i) :: ContentScript.Qualifies(c.doc.chain[i]))
  {
  }

  /** How one `tabs.sendMessage` settled: resolved with whatever the page
      replied, or rejected. */
  datatype Send = Resolved(reply: ContentScript.Reply) | Failed

  /** Which browser calls of `handleReplace` succeed. */
  datatype Env = Env(
    queryOk: bool,       // `tabs.query` returns
    hasTab: bool,        // an active tab with an id
    injectOk: bool,      // first `executeScript`
    first: Send,
    reinjectOk: bool,    // `executeScript` before the retry
    second: Send)

  datatype PopupAction =
    | InjectScript
    | Pause(ms: nat)
    | SendReplace(text: string)
    | ClosePopup
    | ShowErrorText(message: string)

  const NoTabMessage := "Could not access the current tab."
  const ReplaceFailed := "Failed to replace text. Please try copying instead."
  const RetryFailedA := "Failed to replace text. The page may not support text replacement. "
  const RetryFailed := RetryFailedA + "Please try copying instead."

  /** The retry after a failed first send. */
  function Retry(text: string, env: Env): (t: seq<PopupAction>)
    ensures Sends(t) == (if env.reinjectOk then 1 else 0)
    ensures forall i | 0 <= i < |t| && t[i].SendReplace? :: t[i] == SendReplace(text)
  {
    var last := if env.second.Resolved? then ClosePopup else ShowErrorText(RetryFailed);
    if env.reinjectOk then
      SendsCons(last, []);
      SendsCons(SendReplace(text), [last]);
      SendsCons(Pause(RetryDelay), [SendReplace(text), last]);
      SendsCons(InjectScript, [Pause(RetryDelay), SendReplace(text), last]);
      [InjectScript, Pause(RetryDelay), SendReplace(text), last]
    else
      SendsCons(ShowErrorText(RetryFailed), []);
      SendsCons(InjectScript, [ShowErrorText(RetryFailed)]);
      [InjectScript, ShowErrorText(RetryFailed)]
  }

  /** `handleReplace`: the calls made to put the output into the page. */
  function Replace(text: string, env: Env): (trace: seq<PopupAction>)
    ensures text == "" ==> trace == []
    ensures text != "" && !env.queryOk ==> trace == [ShowErrorText(ReplaceFailed)]
    ensures text != "" && env.queryOk && !env.hasTab ==> trace == [ShowErrorText(NoTabMessage)]
  {
    if text == "" then []
    else if !env.queryOk then [ShowErrorText(ReplaceFailed)]
    else if !env.hasTab then [ShowErrorText(NoTabMessage)]
    else Opening(env) + [SendReplace(text)] + (if env.first.Resolved? then [ClosePopup] else Retry(text, env))
  }

  /** The injection before the first send, and its pause when it worked. */
  function Opening(env: Env): (o: seq<PopupAction>)
    ensures Sends(o) == 0
  {
    if env.injectOk then
      SendsCons(Pause(RetryDelay), []);
      SendsCons(InjectScript, [Pause(RetryDelay)]);
      [InjectScript, Pause(RetryDelay)]
    else
      SendsCons(InjectScript, []);
      [InjectScript]
  }

  /** How many `replaceText` messages a trace sends. */
  function Sends(t: seq<PopupAction>): nat {
    if t == [] then 0 else (if t[0].SendReplace? then 1 else 0) + Sends(t[1..])
  }

  lemma SendsCons(a: PopupAction, t: seq<PopupAction>)
    ensures Sends([a] + t) == (if a.SendReplace? then 1 else 0) + Sends(t)
  {
    assert ([a] + t)[1..] == t;
  }

  lemma {:induction false} SendsAppend(a: seq<PopupAction>, b: seq<PopupAction>)
    ensures Sends(a + b) == Sends(a) + Sends(b)
  {
    if a != [] {
      assert (a + b)[0] == a[0] && (a + b)[1..] == a[1..] + b;
      assert Sends(a + b) == (if a[0].SendReplace? then 1 else 0) + Sends(a[1..] + b);
      SendsAppend(a[1..], b);
    } else {
      assert a + b == b;
    }
  }

  /** The popup reached the page: a send resolved. */
  predicate Reached(env: Env) {
    env.first.Resolved? || (env.reinjectOk && env.second.Resolved?)
  }

  /** At most two sends, the second only after a failed first one and a
      working re-injection; every send carries the output text. */
  lemma ReplaceSends(text: string, env: Env)
    requires text != "" && env.queryOk && env.hasTab
    ensures var t := Replace(text, env);
            && Sends(t) == (if !env.first.Resolved? && env.reinjectOk then 2 else 1)
            && (forall i | 0 <= i < |t| && t[i].SendReplace? :: t[i] == SendReplace(text))
  {
    var head := Opening(env);
    var tail := if env.first.Resolved? then [ClosePopup] else Retry(text, env);
    assert Sends([SendReplace(text)]) == 1;
    assert Sends([ClosePopup]) == 0;
    SendsAppend(head, [SendReplace(text)]);
    SendsAppend(head + [SendReplace(text)], tail);
  }

  /** The popup closes exactly when a send resolved, and shows an error
      exactly when it does not; either is its last act, and nothing before
      it closes the popup or shows an error. */
  lemma ReplaceEnds(text: string, env: Env)
    requires text != "" && env.queryOk && env.hasTab
    ensures var t := Replace(text, env);
            && (t[|t| - 1] == ClosePopup <==> Reached(env))
            && (t[|t| - 1].ShowErrorText? <==> !Reached(env))
            && (forall i | 0 <= i < |t| - 1 :: !t[i].ClosePopup? && !t[i].ShowErrorText?)
  {
    var t := Replace(text, env);
    var head := Opening(env) + [SendReplace(text)];
    var tail := if env.first.Resolved? then [ClosePopup] else Retry(text, env);
    assert t == head + tail;
    assert forall i | 0 <= i < |head| :: !head[i].ClosePopup? && !head[i].ShowErrorText?;
    assert forall i | 0 <= i < |tail| - 1 :: !tail[i].ClosePopup? && !tail[i].ShowErrorText?;
    assert t[|t| - 1] == tail[|tail| - 1];
  }

  /** The page's reply is never looked at: a resolved send closes the popup
      whether the content script reported success, failure, or nothing. */
  lemma ReplaceIgnoresReply(text: string, env: Env, r1: ContentScript.Reply, r2: ContentScript.Reply)
    ensures env.first.Resolved? ==> Replace(text, env) == Replace(text, env.(first := Resolved(r1)))
    ensures env.second.Resolved? ==> Replace(text, env) == Replace(text, env.(second := Resolved(r2)))
  {
  }
}

=== FILE: prompts.dfy ===
/** Rewrite modes, their instructions, the prompt built from them, and the
    context-menu items that select a mode (background.js). */
module Prompts {
  import opened Strings

  datatype Mode = Professional | Friendly | Shorten | Expand | Grammar | Translate

  /** The language-preservation phrase every mode but `Translate` carries. */
  const DoNotTranslate := "do not translate"

  const PreserveNames := "Preserve names, URLs, and product names."
  const TranslateLead := "Translate the following text to "
  const TranslateTask := TranslateLead + "English" + "."

  /** The opening sentence of each instruction. */
  function Task(m: Mode): string {
    match m
    case Professional => "Rewrite the following text to be clearer and more professional while keeping the same meaning."
    case Grammar => "Fix grammar and spelling mistakes in the following text."
    case Friendly => "Rewrite the following text to be warmer and more casual while keeping the same meaning."
    case Shorten => "Shorten the following text while preserving all key points."
    case Expand => "Expand the following text by adding clarity and detail without changing the meaning."
    case Translate => TranslateTask
  }

  /** The text around the phrase in the language-preservation sentence. */
  function RuleOpening(m: Mode): string {
    if m == Grammar then " Keep the meaning and language exactly the same - "
    else " IMPORTANT: Keep the text in the same language as the input - "
  }

  function RuleClosing(m: Mode): string {
    if m == Grammar then ". " else " it. "
  }

  /** The language-preservation sentence; the translation instruction has
      none, only the space between its sentences. */
  function LanguageRule(m: Mode): string {
    if m == Translate then " " else RuleOpening(m) + DoNotTranslate + RuleClosing(m)
  }

  /** What the rewritten text is called in the closing sentence. */
  function Product(m: Mode): string {
    match m
    case Professional => "rewritten"
    case Friendly => "rewritten"
    case Grammar => "corrected"
    case Shorten => "shortened"
    case Expand => "expanded"
    case Translate => "translated"
  }

  function ReturnOnly(what: string): string {
    "Return only the " + what + " text without any explanations:"
  }

  /** The sentences every instruction ends with. */
  function Closing(m: Mode): string {
    PreserveNames + " " + ReturnOnly(Product(m))
  }

  /** The instruction `buildPrompt` places before the user's text, assembled
      from the parts the source's six strings share; each concatenation
      spells exactly the source's string for that mode. */
  function Instruction(m: Mode): string {
    Task(m) + LanguageRule(m) + Closing(m)
  }

  /** Every instruction but the translation one tells the model not to
      translate; the translation one never says so. */
  lemma InstructionLanguageRule(m: Mode)
    ensures Contains(Instruction(m), DoNotTranslate) <==> m != Translate
  {
    if m == Translate {
      TranslateLacksDirective();
    } else {
      Regroup(Task(m), RuleOpening(m), DoNotTranslate, RuleClosing(m), Closing(m));
      ContainsInfix(Task(m) + RuleOpening(m), DoNotTranslate, RuleClosing(m) + Closing(m));
    }
  }

  lemma Regroup(a: string, b: string, c: string, d: string, e: string)
    ensures a + (b + c + d) + e == (a + b) + c + (d + e)
    ensures (a + b + c) + d + e == a + b + (c + d + e)
  {
  }

  /** No "d" is followed by "o" anywhere in the translation instruction, so
      the phrase "do not translate" cannot occur in it. */
  lemma TranslateLacksDirective()
    ensures !Contains(Instruction(Translate), DoNotTranslate)
  {
    assert NoPair(TranslateTask, 'd', 'o');
    NoPairConcat(TranslateTask, " ", 'd', 'o');
    ClosingHasNoDo();
    NoPairConcat(TranslateTask + " ", Closing(Translate), 'd', 'o');
    NoPairExcludes(Instruction(Translate), DoNotTranslate);
  }

  lemma ClosingHasNoDo()
    ensures NoPair(Closing(Translate), 'd', 'o')
  {
    var p1 := "Return only the ";
    var p2 := "translated";
    var p3 := " text without any explanations:";
    assert NoPair(PreserveNames, 'd', 'o');
    assert NoPair(p1, 'd', 'o') && NoPair(p2, 'd', 'o') && NoPair(p3, 'd', 'o');
    NoPairConcat(p1, p2, 'd', 'o');
    NoPairConcat(p1 + p2, p3, 'd', 'o');
    NoPairConcat(PreserveNames, " ", 'd', 'o');
    NoPairConcat(PreserveNames + " ", ReturnOnly("translated"), 'd', 'o');
  }

  /** The translation instruction names English as the target language. */
  lemma TranslateTargetsEnglish()
    ensures Contains(Instruction(Translate), "English")
  {
    Regroup(TranslateLead, "English", ".", " ", Closing(Translate));
    ContainsInfix(TranslateLead, "English", "." + " " + Closing(Translate));
  }

  const Separator := "\n\n"

  /** `buildPrompt(text, mode)`: the mode's instruction, a blank line, then
      the text, unchanged. */
  function BuildPrompt(text: string, m: Mode): (prompt: string)
    ensures StartsWith(prompt, Instruction(m) + Separator)
    ensures prompt[|Instruction(m) + Separator|..] == text
  {
    Instruction(m) + Separator + text
  }

  /** The user's text as it can be read back out of a prompt. */
  function PromptText(prompt: string, m: Mode): string
    requires StartsWith(prompt, Instruction(m) + Separator)
  {
    prompt[|Instruction(m) + Separator|..]
  }

  /** Building a prompt loses nothing of the text, so different texts give
      different prompts. */
  lemma PromptRoundTrip(text: string, m: Mode)
    ensures PromptText(BuildPrompt(text, m), m) == text
  {
  }

  lemma BuildPromptInjective(t1: string, t2: string, m: Mode)
    requires BuildPrompt(t1, m) == BuildPrompt(t2, m)
    ensures t1 == t2
  {
    PromptRoundTrip(t1, m);
    PromptRoundTrip(t2, m);
  }

  /** The context-menu item created for each mode. */
  function MenuId(m: Mode): string {
    match m
    case Professional => "rewrite-professional"
    case Grammar => "fix-grammar"
    case Shorten => "shorten"
    case Expand => "expand"
    case Friendly => "make-friendly"
    case Translate => "translate"
  }

  /** The mode a clicked menu item selects; an id outside the table keeps
      the initial `professional`. */
  function MenuMode(id: string): (m: Mode)
    ensures MenuId(m) != id ==> m == Professional
  {
    match id
    case "rewrite-professional" => Professional
    case "fix-grammar" => Grammar
    case "shorten" => Shorten
    case "expand" => Expand
    case "make-friendly" => Friendly
    case "translate" => Translate
    case _ => Professional
  }

  /** Each created menu item selects the mode it was created for. */
  lemma MenuRoundTrip(m: Mode)
    ensures MenuMode(MenuId(m)) == m
  {
  }
}

=== FILE: settings.dfy ===
/** The extension's configuration as it sits in `chrome.storage.sync`, and
    the way the background worker resolves it before every rewrite
    (background.js, `rewriteText` and the `getSettings` message). */
module Settings {
  import opened Wrappers

  /** The stored items: a key-value map in which an absent key is
      `undefined` in the source. Only string values are modelled. */
  type Store = map<string, string>

  const ProviderItem := "provider"
  const LegacyKeyItem := "apiKey"
  const OpenAIKeyItem := "apiKeyOpenAI"
  const GeminiKeyItem := "apiKeyGemini"
  const EndpointItem := "apiEndpoint"
  const ModelItem := "model"

  datatype Provider = OpenAI | Gemini

  /** The provider a stored name selects: every code path compares against
      `'gemini'` and treats anything else as OpenAI. */
  function ProviderOf(name: string): (p: Provider)
    ensures p == Gemini <==> name == "gemini"
  {
    if name == "gemini" then Gemini else OpenAI
  }

  /** The name under which a provider is stored. */
  function ProviderName(p: Provider): (name: string)
    ensures ProviderOf(name) == p
  {
    match p
    case OpenAI => "openai"
    case Gemini => "gemini"
  }

  /** The storage item that holds a provider's own API key. */
  function KeyItem(p: Provider): (k: string)
    ensures k != LegacyKeyItem && k != ProviderItem && k != EndpointItem && k != ModelItem
    ensures k == GeminiKeyItem <==> p == Gemini
  {
    match p
    case OpenAI => OpenAIKeyItem
    case Gemini => GeminiKeyItem
  }

  /** The provider whose key a save leaves alone. */
  function Other(p: Provider): (q: Provider)
    ensures q != p
  {
    match p
    case OpenAI => Gemini
    case Gemini => OpenAI
  }

  const GeminiHost := "https://" + "generativelanguage.googleapis.com"
  const GeminiDefaultEndpoint := GeminiHost + "/v1beta"
  const OpenAIHost := "https://api.openai.com"
  const OpenAIDefaultEndpoint := OpenAIHost + "/v1/chat/completions"
  const GeminiDefaultModel := "gemini-2.5-flash"
  const OpenAIDefaultModel := "gpt-4o-mini"

  function DefaultEndpoint(p: Provider): string {
    match p
    case OpenAI => OpenAIDefaultEndpoint
    case Gemini => GeminiDefaultEndpoint
  }

  function DefaultModel(p: Provider): string {
    match p
    case OpenAI => OpenAIDefaultModel
    case Gemini => GeminiDefaultModel
  }

  function Get(items: Store, k: string): Option<string> {
    if k in items then Some(items[k]) else None
  }

  /** JavaScript `items[k] || fallback`: an absent or empty value is falsy. */
  function OrElse(items: Store, k: string, fallback: string): (v: string)
    ensures k in items && items[k] != "" ==> v == items[k]
    ensures k !in items || items[k] == "" ==> v == fallback
  {
    if k in items && items[k] != "" then items[k] else fallback
  }

  /** The stored provider name, `'openai'` when it is absent or empty. */
  function StoredProviderName(items: Store): string {
    OrElse(items, ProviderItem, "openai")
  }

  /** The settings one rewrite runs with. */
  datatype Config = Config(provider: Provider, apiKey: string, endpoint: string, model: string)

  /** The API key for `p`: its own item whenever that item is defined, even
      when it is the empty string; otherwise the legacy `apiKey` when it is
      non-empty; otherwise empty. */
  function ResolveApiKey(items: Store, p: Provider): (key: string)
    ensures KeyItem(p) in items ==> key == items[KeyItem(p)]
    ensures KeyItem(p) !in items && LegacyKeyItem in items ==> key == items[LegacyKeyItem]
    ensures KeyItem(p) !in items && LegacyKeyItem !in items ==> key == ""
  {
    match Get(items, KeyItem(p))
    case Some(k) => k
    case None => OrElse(items, LegacyKeyItem, "")
  }

  /** The configuration the background worker reads before each request. */
  function Resolve(items: Store): (c: Config)
    ensures c.provider == Gemini <==> ProviderItem in items && items[ProviderItem] == "gemini"
    ensures c.apiKey == ResolveApiKey(items, c.provider)
    ensures EndpointItem in items && items[EndpointItem] != "" ==> c.endpoint == items[EndpointItem]
    ensures EndpointItem !in items || items[EndpointItem] == "" ==> c.endpoint == DefaultEndpoint(c.provider)
    ensures ModelItem in items && items[ModelItem] != "" ==> c.model == items[ModelItem]
    ensures ModelItem !in items || items[ModelItem] == "" ==> c.model == DefaultModel(c.provider)
    ensures c.endpoint != "" && c.model != ""
  {
    var p := ProviderOf(StoredProviderName(items));
    Config(p, ResolveApiKey(items, p),
           OrElse(items, EndpointItem, DefaultEndpoint(p)),
           OrElse(items, ModelItem, DefaultModel(p)))
  }

  /** With nothing stored the worker talks to OpenAI with its defaults and
      no key. */
  lemma ResolveEmptyStore()
    ensures Resolve(map[]) == Config(OpenAI, "", OpenAIDefaultEndpoint, OpenAIDefaultModel)
  {
  }
}

=== FILE: strings.dfy ===
/** The JavaScript string operations the extension relies on: `trim`,
    `startsWith`, `endsWith`, `includes`, `replace` with a string pattern
    (first occurrence only), `substring` with its clamping rules, and the
    decimal rendering of a length in a template literal. */
module Strings {
  import opened Wrappers

  /** The characters `String.prototype.trim` removes: the WhiteSpace and
      LineTerminator code points of ECMAScript (section 12.2 and 12.3 of
      ECMA-262), with the Unicode `Zs` category spelled out. */
  predicate IsSpace(c: char) {
    || c == '\t' || c == '\n' || c == '\U{000B}' || c == '\U{000C}' || c == '\r'
    || c == ' ' || c == '\U{00A0}' || c == '\U{1680}'
    || ('\U{2000}' <= c <= '\U{200A}')
    || c == '\U{2028}' || c == '\U{2029}' || c == '\U{202F}' || c == '\U{205F}'
    || c == '\U{3000}' || c == '\U{FEFF}'
  }

  /** Falsy after `trim()`: empty or made only of whitespace. */
  predicate IsBlank(s: string) {
    forall i | 0 <= i < |s| :: IsSpace(s[i])
  }

  /** Neither end of `s` is whitespace, so `trim` leaves it alone. */
  predicate IsTrimmed(s: string) {
    s == [] || (!IsSpace(s[0]) && !IsSpace(s[|s| - 1]))
  }

  /** The first index at or after `i` that is not whitespace (`|s|` if
      there is none). */
  function SkipSpaces(s: string, i: nat): (k: nat)
    requires i <= |s|
    decreases |s| - i
    ensures i <= k <= |s|
    ensures forall j | i <= j < k :: IsSpace(s[j])
    ensures k == |s| || !IsSpace(s[k])
  {
    if i < |s| && IsSpace(s[i]) then SkipSpaces(s, i + 1) else i
  }

  /** The end of `s[..j]` once its trailing whitespace is dropped. */
  function BackSpaces(s: string, j: nat): (k: nat)
    requires j <= |s|
    ensures k <= j
    ensures forall i | k <= i < j :: IsSpace(s[i])
    ensures k == 0 || !IsSpace(s[k - 1])
  {
    if j > 0 && IsSpace(s[j - 1]) then BackSpaces(s, j - 1) else j
  }

  /** `s.trim()`: `s` without its leading and trailing whitespace. The
      result is a slice of `s`, and everything cut off on either side of
      it is whitespace. */
  function Trim(s: string): (r: string)
    ensures IsTrimmed(r)
    ensures r == [] <==> IsBlank(s)
    ensures var a := SkipSpaces(s, 0);
              && a + |r| <= |s| && r == s[a..a + |r|]
              && (forall i | 0 <= i < a :: IsSpace(s[i]))
              && (forall i | a + |r| <= i < |s| :: IsSpace(s[i]))
  {
    var a := SkipSpaces(s, 0);
    var e := BackSpaces(s, |s|);
    if a == |s| then
      assert s[0..0] == [];
      []
    else
      assert !IsSpace(s[a]);
      var r := s[a..e];
      assert r[0] == s[a] && r[|r| - 1] == s[e - 1];
      assert r == s[a..a + |r|];
      r
  }

  /** The index counts are the only ones with their defining properties. */
  lemma {:induction false} SkipSpacesIs(s: string, i: nat, k: nat)
    requires i <= k <= |s|
    requires forall j | i <= j < k :: IsSpace(s[j])
    requires k == |s| || !IsSpace(s[k])
    ensures SkipSpaces(s, i) == k
    decreases k - i
  {
    if i < k {
      SkipSpacesIs(s, i + 1, k);
    }
  }

  lemma {:induction false} BackSpacesIs(s: string, j: nat, k: nat)
    requires k <= j <= |s|
    requires forall i | k <= i < j :: IsSpace(s[i])
    requires k == 0 || !IsSpace(s[k - 1])
    ensures BackSpaces(s, j) == k
    decreases j - k
  {
    if k < j {
      BackSpacesIs(s, j - 1, k);
    }
  }

  /** A string whose ends are not whitespace is its own trim. */
  lemma TrimOfTrimmed(s: string)
    requires IsTrimmed(s)
    ensures Trim(s) == s
  {
    assert s[0..|s|] == s;
  }

  /** A leading whitespace character makes no difference to the trim. */
  lemma TrimLeadingSpace(c: char, x: string)
    requires IsSpace(c)
    ensures Trim([c] + x) == Trim(x)
  {
    var s := [c] + x;
    var a := SkipSpaces(x, 0);
    var e := BackSpaces(x, |x|);
    assert s[1..] == x;
    SkipSpacesIs(s, 0, a + 1);
    if a < |x| {
      assert !IsSpace(x[a]) && a < e;
      BackSpacesIs(s, |s|, e + 1);
      assert s[a + 1..e + 1] == s[1..][a..e];
    }
  }

  lemma TrimIdempotent(s: string)
    ensures Trim(Trim(s)) == Trim(s)
  {
    TrimOfTrimmed(Trim(s));
  }

  predicate StartsWith(s: string, prefix: string) {
    |prefix| <= |s| && s[..|prefix|] == prefix
  }

  predicate EndsWith(s: string, suffix: string) {
    |suffix| <= |s| && s[|s| - |suffix|..] == suffix
  }

  lemma EndsWithAppend(s: string, t: string)
    ensures EndsWith(s + t, t)
  {
    assert (s + t)[|s|..] == t;
  }

  /** `t` occurs in `s` starting at index `i`. */
  predicate OccursAt(s: string, t: string, i: nat) {
    i + |t| <= |s| && s[i..i + |t|] == t
  }

  /** `s.includes(t)`. */
  predicate Contains(s: string, t: string) {
    exists i: nat | i <= |s| :: OccursAt(s, t, i)
  }

  /** The first occurrence of `t` in `s` at or after `from`. */
  function IndexFrom(s: string, t: string, from: nat): (r: Option<nat>)
    decreases |s| - from
    ensures r.Some? ==> from <= r.value && OccursAt(s, t, r.value)
    ensures r.Some? ==> forall j: nat | from <= j < r.value :: !OccursAt(s, t, j)
    ensures r.None? ==> forall j: nat | from <= j :: !OccursAt(s, t, j)
  {
    if from + |t| > |s| then None
    else if OccursAt(s, t, from) then Some(from)
    else IndexFrom(s, t, from + 1)
  }

  /** `s.indexOf(t)`, with `None` for -1. */
  function IndexOf(s: string, t: string): (r: Option<nat>)
    ensures r.None? <==> !Contains(s, t)
    ensures r.Some? ==> OccursAt(s, t, r.value)
    ensures r.Some? ==> forall j: nat | j < r.value :: !OccursAt(s, t, j)
  {
    IndexFrom(s, t, 0)
  }

  /** `s.replace(t, rep)` with a string pattern: only the FIRST occurrence of
      `t` is replaced, wherever it is; without an occurrence `s` is returned. */
  function ReplaceFirst(s: string, t: string, rep: string): (r: string)
    ensures !Contains(s, t) ==> r == s
    ensures Contains(s, t) ==>
              exists i: nat | i <= |s| :: OccursAt(s, t, i)
                               && (forall j: nat | j < i :: !OccursAt(s, t, j))
                               && r == s[..i] + rep + s[i + |t|..]
  {
    match IndexOf(s, t)
    case None => s
    case Some(i) => s[..i] + rep + s[i + |t|..]
  }

  /** Removing the first occurrence of `t` when it starts at `i`. */
  lemma ReplaceFirstAt(s: string, t: string, i: nat)
    requires OccursAt(s, t, i)
    requires forall j: nat | j < i :: !OccursAt(s, t, j)
    ensures ReplaceFirst(s, t, "") == s[..i] + s[i + |t|..]
  {
    var k := IndexOf(s, t).value;
    assert OccursAt(s, t, k) && OccursAt(s, t, i);
  }

  lemma ContainsInfix(a: string, t: string, b: string)
    ensures Contains(a + t + b, t)
  {
    assert (a + t + b)[|a|..|a| + |t|] == t;
    assert OccursAt(a + t + b, t, |a|);
  }

  /** No character `a` is directly followed by `b` in `s`. */
  predicate NoPair(s: string, a: char, b: char) {
    forall i | 0 <= i < |s| - 1 :: !(s[i] == a && s[i + 1] == b)
  }

  lemma NoPairConcat(x: string, y: string, a: char, b: char)
    requires NoPair(x, a, b) && NoPair(y, a, b)
    requires x == [] || y == [] || !(x[|x| - 1] == a && y[0] == b)
    ensures NoPair(x + y, a, b)
  {
    var s := x + y;
    forall i | 0 <= i < |s| - 1 ensures !(s[i] == a && s[i + 1] == b) {
      if i + 1 < |x| {
        assert s[i] == x[i] && s[i + 1] == x[i + 1];
      } else if i >= |x| {
        assert s[i] == y[i - |x|] && s[i + 1] == y[i + 1 - |x|];
      }
    }
  }

  /** A string lacking the pair formed by the first two characters of `t`
      cannot contain `t`. */
  lemma {:induction false} NoPairExcludes(s: string, t: string)
    requires |t| >= 2 && NoPair(s, t[0], t[1])
    ensures !Contains(s, t)
  {
    forall i: nat | i <= |s| ensures !OccursAt(s, t, i) {
      if i + |t| <= |s| {
        var w := s[i..i + |t|];
        assert w[0] == s[i] && w[1] == s[i + 1];
      }
    }
  }

  /** A string lacking some character of `t` cannot contain `t`. */
  lemma NoCharExcludes(s: string, t: string, k: nat)
    requires k < |t| && t[k] !in s
    ensures !Contains(s, t)
  {
    forall i: nat | i <= |s| ensures !OccursAt(s, t, i) {
      if i + |t| <= |s| {
        var w := s[i..i + |t|];
        assert w[k] == s[i + k] && s[i + k] in s;
      }
    }
  }

  /** JavaScript `message || fallback` on a string. */
  function MessageOr(message: string, fallback: string): (r: string)
    ensures r != "" <==> message != "" || fallback != ""
    ensures message != "" ==> r == message
    ensures message == "" ==> r == fallback
  {
    if message != "" then message else fallback
  }

  /** JavaScript `s.substring(from, to)`: both indices are clamped to
      `[0, |s|]` and swapped when out of order. */
  function Substring(s: string, from: int, to: int): (r: string)
    ensures exists a, b :: 0 <= a <= b <= |s| && r == s[a..b]
  {
    var f := Clamp(from, |s|);
    var t := Clamp(to, |s|);
    if f <= t then s[f..t] else s[t..f]
  }

  function Clamp(i: int, n: nat): (r: nat)
    ensures r <= n
    ensures 0 <= i <= n ==> r == i
  {
    if i < 0 then 0 else if i > n then n else i
  }

  function Digit(d: nat): char
    requires d < 10
  {
    "0123456789"[d]
  }

  predicate IsDigit(c: char) { '0' <= c <= '9' }

  /** The decimal rendering of a count, as `${count}` produces it. */
  function NatToString(n: nat): (r: string)
    ensures |r| > 0
    ensures forall i | 0 <= i < |r| :: IsDigit(r[i])
  {
    if n < 10 then [Digit(n)] else NatToString(n / 10) + [Digit(n % 10)]
  }

  /** The value of a string of decimal digits. */
  function ParseDigits(s: string): nat
    requires forall i | 0 <= i < |s| :: IsDigit(s[i])
  {
    if s == [] then 0
    else
      var d := s[|s| - 1];
      assert IsDigit(d);
      ParseDigits(s[..|s| - 1]) * 10 + (d as int - '0' as int)
  }

  /** Reading the decimal rendering back gives the count. */
  lemma {:induction false} NatToStringRoundTrip(n: nat)
    ensures ParseDigits(NatToString(n)) == n
  {
    var s := NatToString(n);
    if n < 10 {
      assert s[..0] == [];
    } else {
      NatToStringRoundTrip(n / 10);
      assert s[..|s| - 1] == NatToString(n / 10);
    }
  }
}

=== FILE: wrappers.dfy ===
/** Optional values and success-or-error outcomes, used wherever the
    extension reads a field that may be `undefined` or throws an `Error`. */
module Wrappers {

  /** A value that may be absent (a missing object property in the source). */
  datatype Option<+T> = None | Some(value: T)

  /** The outcome of an operation that either returns a value or throws an
      `Error` whose message is a string. */
  datatype Result<+T> = Ok(value: T) | Err(message: string)
}
